=== FILE: README.md ===
# vapour: the VDF parser, the Steam library join and the command logic

This project models the core of `vapour`, a command-line tool that finds
Steam games. It reads Steam's `libraryfolders.vdf` and keeps a catalog that
maps app ids to app names. The model has three parts:

- **The VDF parser** (`src/vdf.rs`). It is a recursive-descent parser over a
  cursor, the unparsed suffix of the input. Each sub-parser is a pure function
  from that suffix to a result (or `None`) and the cursor it leaves. What a
  failed sub-parser consumed therefore stays visible.
- **The library tree** (`src/library.rs`). It turns the parsed
  `libraryfolders` tree into libraries, each a path and a set of app ids. It
  then joins those ids against the catalog to produce the installed apps.
  - `SteamApp` compares apps by their name only.
  - The name is `None` when its bytes are not UTF-8.
- **The commands** (`src/main.rs`).
  - `name-of` looks an id up under its 4-byte little-endian key.
  - `id-of` and `compat-data` filter apps by a pattern, push them into a
    `BinaryHeap`, and print them in the order the heap pops them.
  - `compat-data` prints each app's compatibility-data directory.

Modules, one per file:

- `Wrappers`: `Option`, `Result`, `Ordering`.
- `Numbers`: `u32`, decimal text, and `str::parse::<u32>`.
- `Str`: UTF-8 validity, as in Table 3-7 of the Unicode Standard, and
  byte-wise string order.
- `Catalog`: the id-to-name store and its little-endian keys.
- `Paths`: `PathBuf` parsing and `join`.
- `Vdf`: the parser.
- `VdfPrint`: a printer and the print/parse round trip.
- `VdfFacts`: edge cases, truncated input, and the unit-test document.
- `Library`: the library tree and the app join.
- `Heap`: the `BinaryHeap` push-all/pop-all.
- `Commands`: `name-of`, `id-of`, `compat-data`.
- `Scenarios`: a small concrete catalog, and a `libraryfolders.vdf` followed from its text to the installed apps.

Behaviour of the code that a reader might not expect, as the model states it:

- `parse_entries` never fails. Unterminated input such as `"a" { "b"`
  yields an empty map and leaves the cursor after `"a"`
  (`VdfFacts.UnterminatedGroup`). As a result, the "libraryfolders.vdf is
  invalid" error cannot occur.
- `parse_lit_str` and `parse_entry` do not give back what they consumed when
  they fail (`VdfPrint.LitStrUnterminated`, `VdfPrint.EntryKeepsKey`). Only
  `parse_map` restores the cursor.
- Installed apps are not sorted. They are pushed into a `BinaryHeap` and
  popped:
  - `id-of` prints by ascending name, and equal names by descending id;
  - `compat-data` prints by ascending name.
- A lone `"` in front of a group is swallowed: `parse_lit_str` consumes it
  and fails, and `parse_value` then reads the group after it. So in
  `"k" " {}` the value of `k` is an empty group
  (`VdfFacts.LoneQuoteSwallowed`).
- A group whose last key has no value is not an error: the key is dropped.
  So `{"a" "b" "c"}` is the group holding only `a` → `b`
  (`VdfFacts.TruncatedGroup`).
- `SteamLibraries::apps` does not drop apps whose name is not UTF-8. The
  commands do that.

## Model

| member | source | states |
|---|---|---|
| Vdf.VdfValue.AsValue | src/vdf.rs:25-30 | a value has a string exactly when it is a quoted string, and it is that string |
| Vdf.VdfValue.AsMap | src/vdf.rs:32-37 | a value has entries exactly when it is a group, and they are its entries |
| Vdf.SplitChar | src/vdf.rs:96-100 | nothing exactly when the input is all whitespace; otherwise the first character that is not whitespace and the text after it, with only whitespace before it |
| Vdf.ParseChar | src/vdf.rs:86-100 | on failure nothing is consumed; it succeeds exactly when the first non-whitespace character is `ch`, and then removes the whitespace and that one character |
| Vdf.SplitOnce | src/vdf.rs:79 | `split_once`: none exactly when the separator is absent; otherwise the text is the part before, the separator, and the rest, and the part before has no separator |
| Vdf.ParseLitStr | src/vdf.rs:76-84 | the string is the exact text up to the next quote and never contains a quote; input where no quote comes first is rejected unconsumed; when the closing quote is missing the cursor stays just after the opening quote, with no quote left in it |
| Vdf.ParseValue | src/vdf.rs:53-59 | a success always consumes input; after a failure the cursor is just after the opening quote when the input starts with one, and unchanged otherwise |
| Vdf.ParseMap | src/vdf.rs:61-74 | a failure restores the cursor exactly; a success consumes at least the two braces |
| Vdf.ParseEntry | src/vdf.rs:49-51 | input that does not start with a quote is rejected without consuming anything; input that does is always consumed at least in part, whether or not the entry parses |
| Vdf.ParseEntryList | src/vdf.rs:46 | the iteration stops only where no entry can begin, and its cursor is a suffix of the input; which entries it keeps is stated by `VdfPrint.EntriesBefore` |
| Vdf.ParseEntries | src/vdf.rs:45-47 | always returns a map; the cursor left behind is a suffix where no entry can begin |
| Vdf.Collect | src/vdf.rs:46 | the keys of the collected map are exactly the keys of the entries |
| Vdf.CollectLastWins | src/vdf.rs:46 | an entry whose key no later entry repeats keeps its value, so the last entry with a key wins |
| Vdf.CollectDistinct | src/vdf.rs:46 | without repeated keys every entry is found under its own key |
| VdfPrint.ToEntries | src/vdf.rs:12-16 | the meaning of a document: one `(key, value)` pair per document entry, in order |
| VdfPrint.LitStrRoundTrip | src/vdf.rs:76-84 | any whitespace, then a quoted string without quotes, parses back to that string and leaves the rest |
| VdfPrint.LitStrRejects | src/vdf.rs:76-79 | input where no quote begins is rejected by `parse_lit_str` without consuming anything |
| VdfPrint.LitStrUnterminated | src/vdf.rs:76-81 | an opening quote with no closing quote after it fails, and the cursor stays just after that opening quote |
| VdfPrint.EntryKeepsKey | src/vdf.rs:49-51 | when a key parses but its value does not, the entry fails and the key stays consumed: the cursor is where `parse_value` left it |
| VdfPrint.Brace | src/vdf.rs:86-94 | after any whitespace, a brace is not the start of a quoted string, and `parse_char` consumes exactly that brace and leaves the rest |
| VdfPrint.MapRoundTrip | src/vdf.rs:61-74 | a printed group parses back through `parse_map` to its map |
| VdfPrint.ValueRoundTrip | src/vdf.rs:53-59 | a printed value, leaf or group, parses back to that value |
| VdfPrint.EntryRoundTrip | src/vdf.rs:49-51 | a printed entry parses back to its key and value |
| VdfPrint.EntriesRoundTrip | src/vdf.rs:45-51 | printed entries parse back to their list when no entry can begin after them, and nothing after them is consumed |
| VdfPrint.EntriesBefore | src/vdf.rs:45-51 | printed entries in front of any text parse back to their list, in order, followed by whatever the iteration reads from that text alone, and it stops where it would stop on that text |
| VdfPrint.EntriesThenFailure | src/vdf.rs:45-51 | printed entries followed by text where the next entry fails parse back to exactly their list; the cursor is where that failing entry left it, so a key it consumed stays consumed |
| VdfPrint.RoundTrip | src/vdf.rs:45-84 | any document whose keys and leaves have no quote, with any whitespace layout, prints to text that `parse_entries` turns back into its tree, consuming all but the trailing whitespace |
| VdfFacts.BlankInput | src/vdf.rs:45-47 | empty or whitespace-only input parses to an empty map and nothing is consumed |
| VdfFacts.EmptyMapValue | src/vdf.rs:61-67 | `{}` parses to an empty map value |
| VdfFacts.EmptyStringValue | src/vdf.rs:76-84 | `""` parses to the empty string value |
| VdfFacts.EntriesStopForGood | src/vdf.rs:45-47 | running `parse_entries` again where it stopped yields an empty map and consumes nothing |
| VdfFacts.UnterminatedGroup | src/vdf.rs:45-74 | `"a" { "b"` yields an empty map, not a failure, and leaves the cursor just after `"a"` |
| VdfFacts.LoneQuoteSwallowed | src/vdf.rs:53-59 | a lone `"` before `{}` is swallowed, and the value is the empty group |
| VdfFacts.ValueAfterLoneQuote | src/vdf.rs:53-59 | after a lone opening quote, `parse_value` gives what `parse_map` gives on the text after the quote |
| VdfFacts.DanglingKeyDropped | src/vdf.rs:45-74 | a group whose last key has no value parses to the map of the entries before that key; the key is dropped and the group closes on the brace after it |
| VdfFacts.EntriesBeforeDanglingKey | src/vdf.rs:45-51 | the entries before a dangling key are kept, and the cursor stops at the closing brace after the key |
| VdfFacts.NoValueAtBrace | src/vdf.rs:53-74 | a closing brace is no value, and trying to parse one consumes nothing |
| VdfFacts.TruncatedGroup | src/vdf.rs:45-74 | `{"a" "b" "c"}` parses to the group holding only `a` → `b` |
| VdfFacts.FirstEntryFails | src/vdf.rs:45-47 | when the first entry fails, `parse_entries` yields an empty map and keeps what that entry consumed |
| VdfFacts.KeyWithoutValue | src/vdf.rs:45-51 | a key with nothing after it is consumed and ends the entries with an empty map |
| VdfFacts.SnapshotParse | src/vdf.rs:111-128 | the document of the unit test parses completely into `libraryfolders` → `0` → the seven fields with their values and an empty `apps` map |
| Numbers.Decimal | src/main.rs:122 | decimal text is non-empty, all digits, and has a leading zero only for zero |
| Numbers.DecimalValueOfDecimal | src/main.rs:122 | reading the decimal text back gives the number |
| Numbers.ParseU32 | src/library.rs:106 | `str::parse::<u32>` accepts exactly the text that, after one optional leading `+` with more after it, is one or more ASCII digits whose value is below 2^32, and yields that value; any `-` is rejected |
| Numbers.ParseDecimal | src/library.rs:106 | the decimal text of every `u32` parses back to it |
| Numbers.ParsePlusDecimal | src/library.rs:106 | a leading `+` is accepted |
| Numbers.ParseLeadingZero | src/library.rs:106 | leading zeros are accepted: `010` and `+010` are 10 |
| Numbers.ParseOverflow | src/library.rs:106 | 4294967296 does not parse as a `u32` |
| Str.FromUtf8 | src/library.rs:50-52 | `from_utf8` succeeds exactly on well-formed UTF-8 and then returns the same bytes |
| Str.EncodeValid | src/library.rs:50-52 | the UTF-8 encoding of any text is well formed, so stored names written from text decode |
| Str.LexCmpEqual | src/library.rs:69-73 | byte-wise comparison says equal exactly when the strings are equal |
| Str.LexCmpAntisymmetric | src/library.rs:69-73 | swapping the arguments reverses the comparison |
| Str.LexCmpTransitive | src/library.rs:69-73 | byte-wise order is transitive, and strictly so when one step is strict |
| Catalog.LeBytes | src/main.rs:38 | a key is 4 bytes |
| Catalog.FromLeOfLeBytes | src/main.rs:78-82 | `from_le_bytes(to_le_bytes(x)) == x` |
| Catalog.LeBytesOfFromLe | src/main.rs:78-82 | every 4-byte key is the encoding of the id decoded from it |
| Catalog.KeyToId | src/main.rs:78-82 | a key decodes exactly when it is 4 bytes, to the id whose encoding it is |
| Catalog.Get | src/main.rs:38 | a lookup finds the name stored under the id's key, and nothing when that key is absent |
| Paths.Parse | src/library.rs:100 | parsing text into a path cannot fail and gives that root |
| Paths.Join | src/main.rs:118-126 | joining appends one component and keeps everything else |
| Library.GamesOf | src/library.rs:101-106 | an id is in a library's set exactly when some key of `apps` parses to it; the values play no part |
| Library.NonNumericKeySkipped | src/library.rs:101-106 | adding a key such as `not_a_number` leaves the id set unchanged |
| Library.LibraryOf | src/library.rs:97-109 | an entry becomes a library exactly when it is a map with a `path` value and an `apps` map, with that path and the ids of `apps` |
| Library.KeepLibraries | src/library.rs:97-109 | a library is kept exactly when some entry yields it; malformed entries are skipped |
| Library.KeepLibrariesCount | src/library.rs:97-109 | one library per well-formed entry, however many malformed entries there are |
| Library.ExtractLibraries | src/library.rs:91-109 | a missing `libraryfolders` is one error and a `libraryfolders` value is the other; otherwise the libraries are exactly those of the well-formed entries, one each, whatever their index keys |
| Library.LoadSteamLibraries | src/library.rs:88-110 | the outcome is exactly the map walk applied to the parsed tree; the "is invalid" error never occurs; failure happens exactly when `libraryfolders` is missing or is not a map |
| Library.SteamApp.AppName | src/library.rs:50-52 | a name exactly when the stored bytes are valid UTF-8, and then those bytes |
| Library.AppEq | src/library.rs:55-59 | two apps are equal exactly when both names are valid UTF-8 and the same bytes, or neither is valid |
| Library.AppCmp | src/library.rs:63-73 | invalid names come first and tie with each other; valid names compare byte by byte |
| Library.AppOrder | src/library.rs:55-73 | comparing apps is a total order that agrees with equality, and an app without a valid name sorts before every app with one |
| Library.AppOrderIgnoresIdAndPath | src/library.rs:55-73 | changing an app's id or path changes neither comparison nor equality |
| Library.SortedIds | src/library.rs:29 | the ids of a set, each once, ascending |
| Library.AppsOf | src/library.rs:29-35 | an app is produced exactly for each id of the library whose key is in the catalog, with that name and the library's path |
| Library.Apps | src/library.rs:27-37 | every app produced is one of some library's ids that the catalog knows, with the stored bytes and that library's path |
| Library.LibraryAppsMembers | src/library.rs:29-35 | the apps of one library are exactly its ids that the catalog knows, with the stored bytes and the library's path |
| Library.AppsMembers | src/library.rs:27-37 | an app is produced exactly for each (library, id) pair whose id the catalog knows, carrying that library's path and the stored bytes, valid UTF-8 or not |
| Library.AppsOfCount | src/library.rs:29-35 | within one library, one app per known id and none for absent ids |
| Library.LibraryAppsCount | src/library.rs:29-35 | a library contributes as many apps as its set has ids known to the catalog |
| Library.AppsOfOnce | src/library.rs:29-35 | over distinct ids, an app occurs exactly once when its id is among them, its name is the stored one and its path is the library's, and otherwise not at all |
| Library.AppsMultiplicity | src/library.rs:27-37 | each app occurs in the join exactly as many times as there are libraries holding it |
| Library.AppsCount | src/library.rs:27-37 | the join's length is the number of (library, id) pairs whose id the catalog knows |
| Heap.MaxExists | src/main.rs:94 | a non-empty heap has a greatest element, so `pop` returns one |
| Heap.Drain | src/main.rs:58-96 | popping until empty returns exactly the pushed elements, each as often as pushed, greatest first |
| Heap.PopKeepsOrder | src/main.rs:94 | taking a greatest element keeps the output descending and above everything still in the heap |
| Commands.BuildRegex | src/main.rs:53-56 | the pattern is built case-insensitive unless case-sensitive matching is asked for; a pattern that does not compile is the regex error |
| Commands.NameOf | src/main.rs:37-42 | an absent id is "App not found!", stored bytes that are not UTF-8 are "Invalid database", otherwise the stored name |
| Commands.NameOfStored | src/main.rs:37-42 | a name stored from text under an id is what `name-of` returns for that id |
| Commands.NameOfRow | src/main.rs:37-42 | every well-formed row is found by `name-of` under the id its key decodes to |
| Commands.DecodeRow | src/main.rs:77-84 | a row is an invalid database unless its key is 4 bytes and its value UTF-8; otherwise the key encodes the id and the value is the name |
| Commands.CatalogMatches | src/main.rs:76-91 | the loop over the catalog fails with "Invalid database" exactly when some row is bad, whether its name matches or not |
| Commands.CatalogMatchesMembers | src/main.rs:76-91 | the pairs pushed are exactly the rows whose name matches, under the id their key encodes |
| Commands.CatalogMatchesDistinct | src/main.rs:76-91 | no pair is pushed twice |
| Commands.CatalogRowsMembers | src/main.rs:76-91 | over the whole catalog, a pair is pushed exactly when its name is stored under its id's key and matches |
| Commands.InstalledMatches | src/main.rs:63-73 | a pair is pushed exactly for each installed app whose name is valid UTF-8 and matches, with that app's id; one pair per app the `compat-data` filter keeps, in the same order and as often |
| Commands.IdHeapOrder | src/main.rs:72 | the heap order on `(Reverse(name), id)` is total and transitive |
| Commands.HeapOrderIsIdOrder | src/main.rs:94-96 | popping that heap prints by ascending name and equal names by descending id |
| Commands.DistinctCount | src/main.rs:94-96 | in a list without repeats each element occurs once |
| Commands.CountDistinct | src/main.rs:94-96 | a list in which each element occurs at most once has no repeats |
| Commands.PermutationDistinct | src/main.rs:94-96 | a rearrangement of a list without repeats has none, so a pair pushed once is printed once |
| Commands.IdOf | src/main.rs:46-96 | a bad pattern fails first; `--installed` fails exactly when loading the libraries failed and otherwise prints each pushed pair as often as pushed; without it the command fails exactly when some row is bad, and otherwise prints each matching stored pair once; output is ascending by name, equal names by descending id |
| Commands.CompatPath | src/main.rs:118-126 | the directory extends the library's path by three components, or five with `drive_c` |
| Commands.CompatPathParts | src/main.rs:118-126 | the directory is `steamapps/compatdata/<id>` below the library, with `pfx/drive_c` below that when asked; the id reads back from its component |
| Commands.CompatPathInjective | src/main.rs:118-126 | two apps of a library never share a directory, nor does one app with and without `drive_c` |
| Commands.Games | src/main.rs:117 | the apps of a listing, in order |
| Commands.Compatible | src/main.rs:111-113 | each app occurs in the filter's output as often as in its input when its name is valid UTF-8 and matches, and never otherwise |
| Commands.CompatHeapOrder | src/main.rs:114-115 | the heap order on `Reverse(app)` is total and transitive |
| Commands.HeapOrderIsNameOrder | src/main.rs:117 | popping that heap prints apps with valid names by ascending name |
| Commands.RearrangedWanted | src/main.rs:113-117 | every app the heap returns passed the filter |
| Commands.Listing | src/main.rs:117-126 | one line per popped app, in order, each with that app's directory |
| Commands.CompatData | src/main.rs:98-137 | a bad pattern fails first, then a failed library load; otherwise every app with a valid matching name is printed as often as it is installed, by ascending name, each with its directory, and no other app is printed |
| Scenarios.TwoGamesJoin | src/library.rs:27-37 | a library holding ids 10 and 20, both in the catalog, yields Half-Life and Portal with the library's path |
| Scenarios.GamesOfTwo | src/library.rs:101-106 | an `apps` map keyed by the decimal text of two ids gives exactly those two ids |
| Scenarios.FoldersParse | src/vdf.rs:45-84 | a printed `libraryfolders.vdf` with one library parses completely to its tree |
| Scenarios.FoldersExtract | src/library.rs:91-109 | that tree yields exactly the one library at `/home/user/games` with ids 10 and 20 |
| Scenarios.LibraryTreeOf | src/library.rs:97-108 | the library entry of that tree is the library at `/home/user/games` with ids 10 and 20 |
| Scenarios.FoldersToApps | src/library.rs:27-37 | from the text of the file to the installed apps: loading gives that library, and joining against the catalog gives Half-Life and Portal with its path |
| Scenarios.CompatTen | src/main.rs:118-126 | id 10 under `/home/user/games` gives `steamapps/compatdata/10`, and `pfx/drive_c` below it when asked |
| Scenarios.IdOrderTies | src/main.rs:72-96 | two pairs with the same name, ids 10 and 20, are printed 20 first |

## Left out

- `src/db.rs`: downloading the app list, the sled database and async I/O are not modelled. The catalog is a map from key bytes to name bytes, passed in.
- `src/cli.rs`: argument parsing is not modelled. The commands take their options as parameters.
- Reading `libraryfolders.vdf` and locating the Steam directory (`src/library.rs:77-87`, `125-138`) are file-system work. `Library.LoadSteamLibraries` takes the file's text, and the commands take the outcome of loading as a parameter. The "could not read" and "base Steam dir not found" errors are therefore outside the model.
- Database read errors are not modelled: the `?` on `get` in `name-of`, the `row?` in `id-of`, and the `.ok()?` in `SteamLibraries::apps`. A read in the model always succeeds.
- The `update` and `completions` commands are not modelled. Neither are spinners, terminal detection, colours, or `print_path`. A command's output is the sequence it returns.
- The regex engine is an uninterpreted pair of functions: which patterns compile and which names they match. Case-insensitivity is passed to it as a flag.
- Error messages keep only their fixed text. The underlying error appended after the colon is dropped.
- The iteration order of `libraryfolders` (a `HashMap`) is a parameter that must list each key once. The catalog's iteration order in `id-of` is a parameter of the same kind.
- Vdf.ParseEntryList: its own contract states only where the iteration stops. Which entries it keeps is stated for printed entries by `VdfPrint.EntriesBefore` and `VdfPrint.EntriesThenFailure`, not on the function itself, because a term for the first entry in its contract makes every proof about a concrete document unfold the parser far deeper.
- Library.SortedIds: a library's `HashSet` of ids is visited in ascending order. The program's own order is unspecified, and only the heap consumes it.
- Commands.CompatData: the order among installed apps with equal names is not fixed, because the model's heap may pop any greatest element.
- The `BTreeMap` used under `cfg(test)` is not modelled. Apart from the two iteration orders given as parameters above, no map's iteration order matters in the model.
- The unit test compares a debug print of the tree. `VdfFacts.SnapshotParse` states the tree itself.
- `PathBuf` is modelled only as a root and a list of joined components.

=== FILE: catalog.dfy ===
/** The app-id catalog as `src/main.rs` and `src/library.rs` read it: a sled
    tree whose keys are app ids as 4 little-endian bytes and whose values are
    app names as bytes.  Only reading is modelled. */
module Catalog {
  import opened Wrappers
  import opened Numbers

  /** The `appids` tree: raw key bytes to raw value bytes. */
  type Store = map<seq<byte>, seq<byte>>

  /** `u32::to_le_bytes`. */
  function LeBytes(x: u32): (b: seq<byte>)
    ensures |b| == 4
  {
    [x % 0x100, (x / 0x100) % 0x100, (x / 0x1_0000) % 0x100, x / 0x100_0000]
  }

  /** `u32::from_le_bytes`. */
  function FromLe(b: seq<byte>): u32
    requires |b| == 4
  {
    var b0, b1, b2, b3 := b[0] as int, b[1] as int, b[2] as int, b[3] as int;
    b0 + 0x100 * b1 + 0x1_0000 * b2 + 0x100_0000 * b3
  }

  lemma FromLeOfLeBytes(x: u32)
    ensures FromLe(LeBytes(x)) == x
  {
    var q1, q2, q3 := x / 0x100, x / 0x1_0000, x / 0x100_0000;
    assert q2 == q1 / 0x100 && q3 == q2 / 0x100;
    assert x == x % 0x100 + 0x100 * q1;
    assert q1 == q1 % 0x100 + 0x100 * q2;
    assert q2 == q2 % 0x100 + 0x100 * q3;
  }

  lemma LeBytesOfFromLe(b: seq<byte>)
    requires |b| == 4
    ensures LeBytes(FromLe(b)) == b
  {
    var x := FromLe(b);
    var b0, b1, b2, b3 := b[0] as int, b[1] as int, b[2] as int, b[3] as int;
    assert x % 0x100 == b0;
    assert x / 0x100 == b1 + 0x100 * b2 + 0x1_0000 * b3;
    assert x / 0x1_0000 == b2 + 0x100 * b3;
    assert x / 0x100_0000 == b3;
  }

  /** A stored key as an app id: `<[u8; 4]>::try_from` then `from_le_bytes`.
      Any other length is not an id. */
  function KeyToId(key: seq<byte>): (r: Option<u32>)
    ensures r.Some? <==> |key| == 4
    ensures r.Some? ==> LeBytes(r.value) == key
  {
    if |key| == 4 then LeBytesOfFromLe(key); Some(FromLe(key)) else None
  }

  /** `appids.get(id.to_le_bytes())`. */
  function Get(store: Store, id: u32): (r: Option<seq<byte>>)
    ensures r.Some? <==> LeBytes(id) in store
    ensures r.Some? ==> r.value == store[LeBytes(id)]
  {
    if LeBytes(id) in store then Some(store[LeBytes(id)]) else None
  }
}

=== FILE: commands.dfy ===
/** The command logic of `src/main.rs` once the catalog is open and the
    libraries are loaded: `name-of`, `id-of` and `compat-data`.  What the
    commands print is the sequence they return, in order. */
module Commands {
  import opened Wrappers
  import opened Numbers
  import opened Str
  import opened Catalog
  import opened Paths
  import opened Library
  import opened Heap

  /** The errors the commands report themselves, plus a failure of
      `load_steam_libraries` passed on unchanged. */
  datatype CmdError = AppNotFound | InvalidDatabase | InvalidRegex | LibraryError(cause: LoadError) {
    /** The message, up to the underlying error appended after the colon. */
    function Message(): string {
      match this
      case AppNotFound => "App not found!"
      case InvalidDatabase => "Invalid database: "
      case InvalidRegex => "App name regex must be valid: "
      case LibraryError(cause) => cause.Message()
    }
  }

  /** A pattern as built by `RegexBuilder`: its text and whether matching
      ignores case. */
  datatype Regex = Regex(pattern: string, caseInsensitive: bool)

  /** The regex engine, which is not modelled: which patterns compile, and
      which names a compiled pattern matches. */
  datatype Engine = Engine(compiles: Regex -> bool, matches: (Regex, seq<byte>) -> bool)

  /** `RegexBuilder::new(..).case_insensitive(!case_sensitive).build()`. */
  function BuildRegex(engine: Engine, pattern: string, caseSensitive: bool): (r: Result<Regex, CmdError>)
    ensures r.Success? <==> engine.compiles(Regex(pattern, !caseSensitive))
    ensures r.Failure? ==> r.error == InvalidRegex
    ensures r.Success? ==> r.value.pattern == pattern && (r.value.caseInsensitive <==> !caseSensitive)
  {
    var re := Regex(pattern, !caseSensitive);
    if engine.compiles(re) then Success(re) else Failure(InvalidRegex)
  }

  // ---------------------------------------------------------------- name-of

  /** `name-of`: look the id up under its little-endian key and decode the
      bytes as UTF-8. */
  function NameOf(store: Store, id: u32): (r: Result<seq<byte>, CmdError>)
    ensures r == Failure(AppNotFound) <==> LeBytes(id) !in store
    ensures r == Failure(InvalidDatabase) <==>
      LeBytes(id) in store && !ValidUtf8(store[LeBytes(id)])
    ensures r.Success? ==>
      LeBytes(id) in store && r.value == store[LeBytes(id)] && ValidUtf8(r.value)
  {
    match Get(store, id)
    case None => Failure(AppNotFound)
    case Some(bytes) =>
      match FromUtf8(bytes)
      case None => Failure(InvalidDatabase)
      case Some(name) => Success(name)
  }

  /** A name stored under an id is the name `name-of` reports for it. */
  lemma NameOfStored(store: Store, id: u32, name: string)
    ensures NameOf(store[LeBytes(id) := Encode(name)], id) == Success(Encode(name))
  {
    EncodeValid(name);
  }

  /** Every well-formed row of the catalog is found again by `name-of`
      under the id its key decodes to. */
  lemma NameOfRow(store: Store, key: seq<byte>)
    requires key in store && |key| == 4 && ValidUtf8(store[key])
    ensures NameOf(store, KeyToId(key).value) == Success(store[key])
  {
  }

  // ------------------------------------------------------------------ id-of

  /** A pair pushed by `id-of`: `(Reverse(name), id)`. */
  datatype IdEntry = IdEntry(name: seq<byte>, id: u32)

  /** One catalog row as `id-of` reads it: a key that is not 4 bytes, or a
      value that is not UTF-8, is an invalid database. */
  function DecodeRow(key: seq<byte>, value: seq<byte>): (r: Result<IdEntry, CmdError>)
    ensures r.Success? <==> |key| == 4 && ValidUtf8(value)
    ensures r.Failure? ==> r.error == InvalidDatabase
    ensures r.Success? ==> LeBytes(r.value.id) == key && r.value.name == value
  {
    match KeyToId(key)
    case None => Failure(InvalidDatabase)
    case Some(id) =>
      match FromUtf8(value)
      case None => Failure(InvalidDatabase)
      case Some(name) => Success(IdEntry(name, id))
  }

  /** No element occurs twice. */
  predicate Distinct<T(==)>(s: seq<T>) {
    forall i, j :: 0 <= i < j < |s| ==> s[i] != s[j]
  }

  /** `rows` lists every key of `store` once: the order of `Tree::iter`. */
  predicate IsRowOrder(rows: seq<seq<byte>>, store: Store) {
    && Distinct(rows)
    && (forall k :: k in store ==> k in rows)
    && (forall i :: 0 <= i < |rows| ==> rows[i] in store)
  }

  /** The loop of `id-of` over the whole catalog: the first bad row fails
      the command, whether its name matches or not; every good row whose
      name matches is pushed. */
  function CatalogMatches(store: Store, rows: seq<seq<byte>>, engine: Engine, re: Regex): (r: Result<seq<IdEntry>, CmdError>)
    requires forall i :: 0 <= i < |rows| ==> rows[i] in store
    ensures r.Failure? <==>
      exists i :: 0 <= i < |rows| && !(|rows[i]| == 4 && ValidUtf8(store[rows[i]]))
    ensures r.Failure? ==> r.error == InvalidDatabase
    ensures r.Success? ==> |r.value| <= |rows|
  {
    if |rows| == 0 then Success([])
    else match DecodeRow(rows[0], store[rows[0]])
      case Failure(err) => Failure(err)
      case Success(e) =>
        match CatalogMatches(store, rows[1..], engine, re)
        case Failure(err) => Failure(err)
        case Success(tail) =>
          if engine.matches(re, e.name) then Success([e] + tail) else Success(tail)
  }

  /** The pairs pushed are exactly the rows whose name matches, each
      with the id its key encodes. */
  lemma {:induction false} CatalogMatchesMembers(store: Store, rows: seq<seq<byte>>, engine: Engine, re: Regex)
    requires forall i :: 0 <= i < |rows| ==> rows[i] in store
    requires CatalogMatches(store, rows, engine, re).Success?
    ensures forall e :: e in CatalogMatches(store, rows, engine, re).value <==>
      exists i :: 0 <= i < |rows| && rows[i] == LeBytes(e.id) && store[rows[i]] == e.name
                                  && engine.matches(re, e.name)
  {
    if |rows| > 0 {
      var tail := rows[1..];
      CatalogMatchesMembers(store, tail, engine, re);
      var e := DecodeRow(rows[0], store[rows[0]]).value;
      forall x
        ensures x in CatalogMatches(store, rows, engine, re).value <==>
          exists i :: 0 <= i < |rows| && rows[i] == LeBytes(x.id) && store[rows[i]] == x.name
                                      && engine.matches(re, x.name)
      {
        if x in CatalogMatches(store, tail, engine, re).value {
          var i :| 0 <= i < |tail| && tail[i] == LeBytes(x.id) && store[tail[i]] == x.name
                                   && engine.matches(re, x.name);
          assert rows[i + 1] == tail[i];
        }
        if exists i :: 0 <= i < |rows| && rows[i] == LeBytes(x.id) && store[rows[i]] == x.name
                                       && engine.matches(re, x.name)
        {
          var i :| 0 <= i < |rows| && rows[i] == LeBytes(x.id) && store[rows[i]] == x.name
                                   && engine.matches(re, x.name);
          if i == 0 {
            FromLeOfLeBytes(x.id);
            FromLeOfLeBytes(e.id);
          } else {
            assert tail[i - 1] == rows[i];
          }
        }
      }
    }
  }

  /** Keys are distinct, so no pair is pushed twice. */
  lemma {:induction false} CatalogMatchesDistinct(store: Store, rows: seq<seq<byte>>, engine: Engine, re: Regex)
    requires forall i :: 0 <= i < |rows| ==> rows[i] in store
    requires CatalogMatches(store, rows, engine, re).Success?
    requires Distinct(rows)
    ensures Distinct(CatalogMatches(store, rows, engine, re).value)
  {
    if |rows| > 0 {
      var tail := rows[1..];
      CatalogMatchesDistinct(store, tail, engine, re);
      CatalogMatchesMembers(store, tail, engine, re);
      var e := DecodeRow(rows[0], store[rows[0]]).value;
      var pushed := CatalogMatches(store, tail, engine, re).value;
      forall i | 0 <= i < |tail|
        ensures tail[i] != LeBytes(e.id)
      {
        assert tail[i] == rows[i + 1];
      }
    }
  }

  /** An app is pushed by `id-of --installed` when its name is valid UTF-8
      and matches. */
  predicate Wanted(engine: Engine, re: Regex, app: SteamApp) {
    app.AppName().Some? && engine.matches(re, app.AppName().value)
  }

  /** The loop of `id-of --installed` over the installed apps.  It pushes
      one pair for each app the `compat-data` filter keeps, in the same
      order and as often, so an app installed twice is pushed twice. */
  function InstalledMatches(apps: seq<SteamApp>, engine: Engine, re: Regex): (r: seq<IdEntry>)
    ensures |r| <= |apps|
    ensures forall e :: e in r <==>
      exists i :: 0 <= i < |apps| && Wanted(engine, re, apps[i])
                               && e == IdEntry(apps[i].rawName, apps[i].appId)
    ensures Projects(r, Compatible(apps, engine, re))
  {
    if |apps| == 0 then []
    else
      var tail := InstalledMatches(apps[1..], engine, re);
      var app := apps[0];
      var keptTail := Compatible(apps[1..], engine, re);
      match app.AppName()
      case None =>
        assert Compatible(apps, engine, re) == keptTail;
        tail
      case Some(name) =>
        if engine.matches(re, name) then
          assert Compatible(apps, engine, re) == [app] + keptTail;
          ProjectsCons(app, tail, keptTail);
          [IdEntry(name, app.appId)] + tail
        else
          assert Compatible(apps, engine, re) == keptTail;
          tail
  }

  /** `r` holds the pair of each app of `kept`, in order. */
  predicate Projects(r: seq<IdEntry>, kept: seq<SteamApp>) {
    && |r| == |kept|
    && forall i :: 0 <= i < |r| ==> r[i] == IdEntry(kept[i].rawName, kept[i].appId)
  }

  lemma ProjectsCons(a: SteamApp, r: seq<IdEntry>, kept: seq<SteamApp>)
    requires Projects(r, kept)
    ensures Projects([IdEntry(a.rawName, a.appId)] + r, [a] + kept)
  {
  }

  /** `(Reverse(a.name), a.id) <= (Reverse(b.name), b.id)`: tuples compare
      field by field, and `Reverse` flips the comparison of names. */
  function IdHeapLe(a: IdEntry, b: IdEntry): bool {
    match LexCmp(a.name, b.name).Reverse()
    case Less => true
    case Greater => false
    case Equal => a.id <= b.id
  }

  lemma IdHeapOrder()
    ensures Total(IdHeapLe) && Transitive(IdHeapLe)
  {
    forall a: IdEntry, b: IdEntry
      ensures IdHeapLe(a, b) || IdHeapLe(b, a)
    {
      LexCmpAntisymmetric(a.name, b.name);
      LexCmpEqual(a.name, b.name);
    }
    forall a: IdEntry, b: IdEntry, c: IdEntry | IdHeapLe(a, b) && IdHeapLe(b, c)
      ensures IdHeapLe(a, c)
    {
      LexCmpAntisymmetric(a.name, b.name);
      LexCmpAntisymmetric(b.name, c.name);
      LexCmpAntisymmetric(a.name, c.name);
      LexCmpEqual(a.name, b.name);
      LexCmpEqual(b.name, c.name);
      LexCmpTransitive(c.name, b.name, a.name);
    }
  }

  /** The order `id-of` prints in: ascending by name, and equal names by
      descending id. */
  predicate IdOrdered(out: seq<IdEntry>) {
    forall i, j :: 0 <= i < j < |out| ==>
      LexCmp(out[i].name, out[j].name) == Less
      || (out[i].name == out[j].name && out[i].id >= out[j].id)
  }

  /** Popping the heap of `id-of` yields its printing order. */
  lemma HeapOrderIsIdOrder(out: seq<IdEntry>)
    requires forall i, j :: 0 <= i < j < |out| ==> IdHeapLe(out[j], out[i])
    ensures IdOrdered(out)
  {
    forall i, j | 0 <= i < j < |out|
      ensures LexCmp(out[i].name, out[j].name) == Less
              || (out[i].name == out[j].name && out[i].id >= out[j].id)
    {
      assert IdHeapLe(out[j], out[i]);
      LexCmpAntisymmetric(out[j].name, out[i].name);
      LexCmpEqual(out[j].name, out[i].name);
    }
  }

  /** Each element of a sequence without repeats occurs once. */
  lemma {:induction false} DistinctCount<T>(s: seq<T>)
    requires Distinct(s)
    ensures forall x :: multiset(s)[x] <= 1
  {
    if |s| > 0 {
      DistinctCount(s[1..]);
      assert s == [s[0]] + s[1..];
      assert s[0] !in s[1..];
    }
  }

  /** A sequence in which each element occurs at most once has no
      repeats. */
  lemma CountDistinct<T>(s: seq<T>)
    requires forall x :: multiset(s)[x] <= 1
    ensures Distinct(s)
  {
    forall i, j | 0 <= i < j < |s|
      ensures s[i] != s[j]
    {
      var front, back := s[..j], s[j..];
      assert s == front + back;
      assert front[i] == s[i];
      assert s[i] in multiset(front);
      assert back[0] == s[j];
      assert s[j] in multiset(back);
      assert multiset(s) == multiset(front) + multiset(back);
      assert multiset(s)[s[j]] <= 1;
    }
  }

  /** A rearrangement of a sequence without repeats has none. */
  lemma PermutationDistinct<T>(a: seq<T>, b: seq<T>)
    requires multiset(a) == multiset(b) && Distinct(a)
    ensures Distinct(b)
  {
    DistinctCount(a);
    CountDistinct(b);
  }

  /** Over an enumeration of the whole catalog, the pairs pushed are the
      stored names that match, under the ids whose keys hold them. */
  lemma CatalogRowsMembers(store: Store, rows: seq<seq<byte>>, engine: Engine, re: Regex)
    requires IsRowOrder(rows, store)
    requires CatalogMatches(store, rows, engine, re).Success?
    ensures forall e :: e in CatalogMatches(store, rows, engine, re).value <==>
      LeBytes(e.id) in store && store[LeBytes(e.id)] == e.name && engine.matches(re, e.name)
  {
    CatalogMatchesMembers(store, rows, engine, re);
    forall e: IdEntry | LeBytes(e.id) in store && store[LeBytes(e.id)] == e.name && engine.matches(re, e.name)
      ensures exists i :: 0 <= i < |rows| && rows[i] == LeBytes(e.id) && store[rows[i]] == e.name
                                        && engine.matches(re, e.name)
    {
      assert LeBytes(e.id) in rows;
    }
  }

  /** `id-of`.  `rows` is the catalog's iteration order; `libraries` is what
      `load_steam_libraries` returned, consulted only with `installed`.  The
      pattern is compiled first, so a bad pattern wins over every other
      error. */
  method IdOf(store: Store, rows: seq<seq<byte>>, engine: Engine, pattern: string,
              caseSensitive: bool, installed: bool,
              libraries: Result<seq<SteamLibrary>, LoadError>)
    returns (r: Result<seq<IdEntry>, CmdError>)
    requires IsRowOrder(rows, store)
    ensures r == Failure(InvalidRegex) <==> !engine.compiles(Regex(pattern, !caseSensitive))
    ensures r.Success? ==> IdOrdered(r.value)
    ensures engine.compiles(Regex(pattern, !caseSensitive)) && installed ==>
      && (r.Failure? <==> libraries.Failure?)
      && (libraries.Failure? ==> r.error == LibraryError(libraries.error))
      && (r.Success? ==>
            multiset(r.value)
            == multiset(InstalledMatches(Apps(libraries.value, store), engine, Regex(pattern, !caseSensitive))))
    ensures engine.compiles(Regex(pattern, !caseSensitive)) && !installed ==>
      && (r.Failure? <==> exists k :: k in store && !(|k| == 4 && ValidUtf8(store[k])))
      && (r.Failure? ==> r.error == InvalidDatabase)
      && (r.Success? ==> Distinct(r.value))
      && (r.Success? ==> forall e :: e in r.value <==>
            LeBytes(e.id) in store && store[LeBytes(e.id)] == e.name
            && engine.matches(Regex(pattern, !caseSensitive), e.name))
  {
    var built := BuildRegex(engine, pattern, caseSensitive);
    if built.Failure? {
      return Failure(built.error);
    }
    var re := built.value;
    assert re == Regex(pattern, !caseSensitive);
    var pushed: seq<IdEntry>;
    if installed {
      if libraries.Failure? {
        return Failure(LibraryError(libraries.error));
      }
      pushed := InstalledMatches(Apps(libraries.value, store), engine, re);
    } else {
      var found := CatalogMatches(store, rows, engine, re);
      if found.Failure? {
        return Failure(found.error);
      }
      pushed := found.value;
      CatalogMatchesDistinct(store, rows, engine, re);
      CatalogRowsMembers(store, rows, engine, re);
    }
    IdHeapOrder();
    var out := Drain(pushed, IdHeapLe);
    HeapOrderIsIdOrder(out);
    if !installed {
      PermutationDistinct(pushed, out);
      forall e ensures e in out <==> e in pushed {
        assert e in multiset(out) <==> e in multiset(pushed);
      }
    }
    return Success(out);
  }

  // ------------------------------------------------------------ compat-data

  /** The compatibility-data directory of an app:
      `<library>/steamapps/compatdata/<id>`, with `pfx/drive_c` below it
      when `driveC` is set. */
  function CompatPath(library: Path, id: u32, driveC: bool): (r: Path)
    ensures r.root == library.root
    ensures |r.components| == |library.components| + (if driveC then 5 else 3)
    ensures r.components[..|library.components|] == library.components
  {
    var dir := Join(Join(Join(library, "steamapps"), "compatdata"), Decimal(id));
    if driveC then Join(Join(dir, "pfx"), "drive_c") else dir
  }

  /** The library, the id and the flag can all be read back from the
      directory: the component after `compatdata` parses as the id. */
  lemma CompatPathParts(library: Path, id: u32, driveC: bool)
    ensures var r := CompatPath(library, id, driveC);
      var n := |library.components|;
      && r.components[n] == "steamapps" && r.components[n + 1] == "compatdata"
      && ParseU32(r.components[n + 2]) == Some(id)
      && (driveC ==> r.components[n + 3..] == ["pfx", "drive_c"])
  {
    ParseDecimal(id);
  }

  /** Different apps of one library, or the same app with and without
      `drive_c`, never share a directory. */
  lemma CompatPathInjective(library: Path, a: u32, b: u32, da: bool, db: bool)
    requires CompatPath(library, a, da) == CompatPath(library, b, db)
    ensures a == b && da == db
  {
    CompatPathParts(library, a, da);
    CompatPathParts(library, b, db);
  }

  /** A line of `compat-data`: the app and its directory. */
  datatype CompatDir = CompatDir(app: SteamApp, dir: Path)

  /** The apps of a listing, in order. */
  function Games(ds: seq<CompatDir>): (r: seq<SteamApp>)
    ensures |r| == |ds|
    ensures forall i :: 0 <= i < |ds| ==> r[i] == ds[i].app
  {
    if |ds| == 0 then [] else [ds[0].app] + Games(ds[1..])
  }

  /** The filter of `compat-data`: apps with a valid name that matches. */
  function Compatible(apps: seq<SteamApp>, engine: Engine, re: Regex): (r: seq<SteamApp>)
    ensures forall a :: multiset(r)[a] == if Wanted(engine, re, a) then multiset(apps)[a] else 0
  {
    if |apps| == 0 then []
    else
      var tail := Compatible(apps[1..], engine, re);
      assert apps == [apps[0]] + apps[1..];
      if Wanted(engine, re, apps[0]) then [apps[0]] + tail else tail
  }

  /** `Reverse(a) <= Reverse(b)`, that is `b <= a` under `Ord for
      SteamApp`. */
  function CompatHeapLe(a: SteamApp, b: SteamApp): bool {
    AppCmp(b, a) != Greater
  }

  lemma CompatHeapOrder()
    ensures Total(CompatHeapLe) && Transitive(CompatHeapLe)
  {
    forall a: SteamApp, b: SteamApp
      ensures CompatHeapLe(a, b) || CompatHeapLe(b, a)
    {
      AppOrder(a, b, a);
    }
    forall a: SteamApp, b: SteamApp, c: SteamApp | CompatHeapLe(a, b) && CompatHeapLe(b, c)
      ensures CompatHeapLe(a, c)
    {
      AppOrder(c, b, a);
    }
  }

  /** The heap order of `compat-data` on apps that all have a valid name
      is ascending by name. */
  lemma HeapOrderIsNameOrder(out: seq<SteamApp>, engine: Engine, re: Regex)
    requires forall i, j :: 0 <= i < j < |out| ==> CompatHeapLe(out[j], out[i])
    requires forall i :: 0 <= i < |out| ==> Wanted(engine, re, out[i])
    ensures forall i, j :: 0 <= i < j < |out| ==> LexCmp(out[i].rawName, out[j].rawName) != Greater
  {
    forall i, j | 0 <= i < j < |out|
      ensures LexCmp(out[i].rawName, out[j].rawName) != Greater
    {
      assert CompatHeapLe(out[j], out[i]);
      assert Wanted(engine, re, out[i]) && Wanted(engine, re, out[j]);
    }
  }

  /** Every app of a rearrangement of the filtered apps passes the
      filter. */
  lemma RearrangedWanted(out: seq<SteamApp>, apps: seq<SteamApp>, engine: Engine, re: Regex)
    requires multiset(out) == multiset(Compatible(apps, engine, re))
    ensures forall i :: 0 <= i < |out| ==> Wanted(engine, re, out[i])
  {
    forall i | 0 <= i < |out|
      ensures Wanted(engine, re, out[i])
    {
      assert out[i] in multiset(out);
    }
  }

  /** The printed lines for apps in printing order. */
  function Listing(games: seq<SteamApp>, driveC: bool): (r: seq<CompatDir>)
    ensures Games(r) == games
    ensures forall i :: 0 <= i < |r| ==> r[i].dir == CompatPath(games[i].path, games[i].appId, driveC)
  {
    if |games| == 0 then []
    else
      var tail := Listing(games[1..], driveC);
      var r := [CompatDir(games[0], CompatPath(games[0].path, games[0].appId, driveC))] + tail;
      assert Games(r) == [games[0]] + Games(tail);
      r
  }

  /** `compat-data`.  `libraries` is what `load_steam_libraries` returned.
      The pattern is compiled before the libraries are consulted. */
  method CompatData(store: Store, engine: Engine, pattern: string, caseSensitive: bool,
                    driveC: bool, libraries: Result<seq<SteamLibrary>, LoadError>)
    returns (r: Result<seq<CompatDir>, CmdError>)
    ensures r == Failure(InvalidRegex) <==> !engine.compiles(Regex(pattern, !caseSensitive))
    ensures engine.compiles(Regex(pattern, !caseSensitive)) ==>
      && (r.Failure? <==> libraries.Failure?)
      && (libraries.Failure? ==> r.error == LibraryError(libraries.error))
    ensures r.Success? ==>
      && libraries.Success?
      && multiset(Games(r.value))
         == multiset(Compatible(Apps(libraries.value, store), engine, Regex(pattern, !caseSensitive)))
    ensures r.Success? ==> forall i :: 0 <= i < |r.value| ==>
      && Wanted(engine, Regex(pattern, !caseSensitive), r.value[i].app)
      && r.value[i].dir == CompatPath(r.value[i].app.path, r.value[i].app.appId, driveC)
    ensures r.Success? ==> forall i, j :: 0 <= i < j < |r.value| ==>
      LexCmp(r.value[i].app.rawName, r.value[j].app.rawName) != Greater
  {
    var built := BuildRegex(engine, pattern, caseSensitive);
    if built.Failure? {
      return Failure(built.error);
    }
    var re := built.value;
    assert re == Regex(pattern, !caseSensitive);
    if libraries.Failure? {
      return Failure(LibraryError(libraries.error));
    }
    var apps := Apps(libraries.value, store);
    var games := Compatible(apps, engine, re);
    CompatHeapOrder();
    var sorted := Drain(games, CompatHeapLe);
    RearrangedWanted(sorted, apps, engine, re);
    HeapOrderIsNameOrder(sorted, engine, re);
    var listing := Listing(sorted, driveC);
    return Success(listing);
  }
}

=== FILE: heap.dfy ===
/** `std::collections::BinaryHeap` as `src/main.rs` uses it: everything is
    pushed first, then `pop` is called until the heap is empty.  The heap is
    a multiset; each `pop` removes a greatest element under the order `le`
    of the element type. */
module Heap {

  /** Any two elements are comparable. */
  ghost predicate Total<T(!new)>(le: (T, T) -> bool) {
    forall a, b :: le(a, b) || le(b, a)
  }

  ghost predicate Transitive<T(!new)>(le: (T, T) -> bool) {
    forall a, b, c :: le(a, b) && le(b, c) ==> le(a, c)
  }

  /** `top` is at least every element of `h`. */
  predicate IsMax<T(==)>(top: T, h: multiset<T>, le: (T, T) -> bool) {
    forall x :: x in h ==> le(x, top)
  }

  /** A non-empty heap has a greatest element, so `pop` always has
      something to return. */
  lemma {:induction false} MaxExists<T(!new)>(h: multiset<T>, le: (T, T) -> bool)
    requires h != multiset{}
    requires Total(le) && Transitive(le)
    ensures exists top :: top in h && IsMax(top, h, le)
    decreases |h|
  {
    var y :| y in h;
    var rest := h - multiset{y};
    if rest == multiset{} {
      forall x | x in h
        ensures le(x, y)
      {
        assert x in rest || x == y;
      }
      assert IsMax(y, h, le);
    } else {
      MaxExists(rest, le);
      var m :| m in rest && IsMax(m, rest, le);
      if le(y, m) {
        forall x | x in h
          ensures le(x, m)
        {
          assert x in rest || x == y;
        }
        assert IsMax(m, h, le);
      } else {
        assert le(m, y);
        forall x | x in h
          ensures le(x, y)
        {
          assert x in rest || x == y;
          if x in rest {
            assert le(x, m);
          }
        }
        assert IsMax(y, h, le);
      }
    }
  }

  /** Pushes `items`, then pops until empty.  The output holds exactly the
      pushed elements, greatest first. */
  method Drain<T(==,!new)>(items: seq<T>, le: (T, T) -> bool) returns (out: seq<T>)
    requires Total(le) && Transitive(le)
    ensures multiset(out) == multiset(items)
    ensures forall i, j :: 0 <= i < j < |out| ==> le(out[j], out[i])
  {
    var heap := multiset(items);
    out := [];
    while heap != multiset{}
      invariant multiset(out) + heap == multiset(items)
      invariant forall i, j :: 0 <= i < j < |out| ==> le(out[j], out[i])
      invariant forall i, x :: 0 <= i < |out| && x in heap ==> le(x, out[i])
      decreases |heap|
    {
      MaxExists(heap, le);
      var top :| top in heap && IsMax(top, heap, le);
      PopKeepsOrder(out, heap, top, le);
      out := out + [top];
      heap := heap - multiset{top};
    }
  }

  /** Appending a greatest element of the heap to the output keeps the
      output descending and above everything still in the heap. */
  lemma PopKeepsOrder<T>(out: seq<T>, heap: multiset<T>, top: T, le: (T, T) -> bool)
    requires forall i, j :: 0 <= i < j < |out| ==> le(out[j], out[i])
    requires forall i, x :: 0 <= i < |out| && x in heap ==> le(x, out[i])
    requires top in heap && IsMax(top, heap, le)
    ensures var next := out + [top];
      forall i, j :: 0 <= i < j < |next| ==> le(next[j], next[i])
    ensures var next := out + [top];
      forall i, x :: 0 <= i < |next| && x in heap - multiset{top} ==> le(x, next[i])
  {
    var next := out + [top];
    forall i, j | 0 <= i < j < |next|
      ensures le(next[j], next[i])
    {
      if j == |out| {
        assert next[i] == out[i];
      }
    }
  }
}

=== FILE: library.dfy ===
/** `src/library.rs`: Steam library folders read from a parsed
    `libraryfolders.vdf` tree, and the installed apps obtained by joining
    their ids against the catalog. */
module Library {
  import opened Wrappers
  import opened Numbers
  import opened Str
  import opened Vdf
  import opened Catalog
  import opened Paths

  /** One library location and the ids of the apps installed in it. */
  datatype SteamLibrary = SteamLibrary(path: Path, games: set<u32>)

  /** The errors `load_steam_libraries` reports once the file is read. */
  datatype LoadError = VdfInvalid | MissingLibraryFolders | LibraryFoldersNotMap {
    function Message(): string {
      match this
      case VdfInvalid => "Steam libraryfolders.vdf is invalid"
      case MissingLibraryFolders => "Steam libraryfolders.vdf: missing libraryfolders"
      case LibraryFoldersNotMap => "Steam libraryfolders.vdf: libraryfolders should be a map"
    }
  }

  /** The ids of a library: the keys of its `"apps"` map that parse as
      `u32`.  The values under `"apps"` play no part. */
  function GamesOf(apps: Vdf): (ids: set<u32>)
    ensures forall id: u32 :: id in ids <==> exists k :: k in apps && ParseU32(k) == Some(id)
  {
    set k | k in apps && ParseU32(k).Some? :: ParseU32(k).value
  }

  /** A key that does not start with a digit or `+` (such as
      `"not_a_number"`) adds no id and removes none. */
  lemma NonNumericKeySkipped(apps: Vdf, key: string, v: VdfValue)
    requires key !in apps
    requires |key| == 0 || (!IsDigit(key[0]) && key[0] != '+')
    ensures GamesOf(apps[key := v]) == GamesOf(apps)
  {
  }

  /** A library entry is usable when it is a map whose `"path"` is a value
      and whose `"apps"` is a map. */
  predicate WellFormedLibrary(v: VdfValue) {
    && v.Map?
    && "path" in v.entries && v.entries["path"].Value?
    && "apps" in v.entries && v.entries["apps"].Map?
  }

  /** The closure passed to `filter_map` over the library entries. */
  function LibraryOf(v: VdfValue): (r: Option<SteamLibrary>)
    ensures r.Some? <==> WellFormedLibrary(v)
    ensures r.Some? ==>
      && r.value.path == Parse(v.entries["path"].text)
      && r.value.games == GamesOf(v.entries["apps"].entries)
  {
    match v.AsMap()
    case None => None
    case Some(lib) =>
      if "path" !in lib || lib["path"].AsValue().None? then None
      else if "apps" !in lib || lib["apps"].AsMap().None? then None
      else Some(SteamLibrary(Parse(lib["path"].text), GamesOf(lib["apps"].entries)))
  }

  /** `order` lists every key of `keys` exactly once: the iteration order of
      the `HashMap`, which the program does not choose. */
  predicate IsEnumeration(order: seq<string>, keys: set<string>) {
    && (forall i, j :: 0 <= i < j < |order| ==> order[i] != order[j])
    && (forall k :: k in keys ==> k in order)
    && (forall i :: 0 <= i < |order| ==> order[i] in keys)
  }

  /** The keys whose entries are usable libraries. */
  function WellFormedKeys(folders: Vdf): set<string> {
    set k | k in folders && WellFormedLibrary(folders[k])
  }

  /** The libraries of `folders`, visited in `order`, malformed ones
      skipped. */
  function KeepLibraries(folders: Vdf, order: seq<string>): (libs: seq<SteamLibrary>)
    requires forall i :: 0 <= i < |order| ==> order[i] in folders
    ensures |libs| <= |order|
    ensures forall lib :: lib in libs <==>
      exists i :: 0 <= i < |order| && LibraryOf(folders[order[i]]) == Some(lib)
  {
    if |order| == 0 then []
    else
      var rest := KeepLibraries(folders, order[1..]);
      match LibraryOf(folders[order[0]])
      case Some(lib) => [lib] + rest
      case None => rest
  }

  /** One library per usable entry: skipping a malformed entry loses
      nothing else. */
  lemma {:induction false} KeepLibrariesCount(folders: Vdf, order: seq<string>)
    requires forall i :: 0 <= i < |order| ==> order[i] in folders
    requires forall i, j :: 0 <= i < j < |order| ==> order[i] != order[j]
    ensures |KeepLibraries(folders, order)|
         == |set k | k in order && WellFormedLibrary(folders[k])|
  {
    var good := set k | k in order && WellFormedLibrary(folders[k]);
    if |order| > 0 {
      var tail := order[1..];
      var goodTail := set k | k in tail && WellFormedLibrary(folders[k]);
      KeepLibrariesCount(folders, tail);
      assert order[0] !in tail;
      assert forall k :: k in order <==> k == order[0] || k in tail;
      if WellFormedLibrary(folders[order[0]]) {
        assert good == goodTail + {order[0]};
      } else {
        assert good == goodTail;
      }
    } else {
      assert good == {};
    }
  }

  /** The map walk of `load_steam_libraries` once the file is parsed:
      `"libraryfolders"` must exist and be a map; its index keys are ignored
      and every usable entry becomes a library. */
  function ExtractLibraries(root: Vdf, order: seq<string>): (r: Result<seq<SteamLibrary>, LoadError>)
    requires "libraryfolders" in root && root["libraryfolders"].Map? ==>
      IsEnumeration(order, root["libraryfolders"].entries.Keys)
    ensures r == Failure(MissingLibraryFolders) <==> "libraryfolders" !in root
    ensures r == Failure(LibraryFoldersNotMap) <==>
      "libraryfolders" in root && root["libraryfolders"].Value?
    ensures r.Success? ==>
      var folders := root["libraryfolders"].entries;
      && (forall lib :: lib in r.value <==>
            exists k :: k in folders && LibraryOf(folders[k]) == Some(lib))
      && |r.value| == |WellFormedKeys(folders)|
  {
    if "libraryfolders" !in root then Failure(MissingLibraryFolders)
    else match root["libraryfolders"].AsMap()
      case None => Failure(LibraryFoldersNotMap)
      case Some(folders) =>
        var libs := KeepLibraries(folders, order);
        KeepLibrariesCount(folders, order);
        assert WellFormedKeys(folders) == set k | k in order && WellFormedLibrary(folders[k]);
        Success(libs)
  }

  /** `load_steam_libraries` after the file has been read into `text`.  Its
      "is invalid" error cannot occur, since `parse_entries` never fails. */
  function LoadSteamLibraries(text: string, order: seq<string>): (r: Result<seq<SteamLibrary>, LoadError>)
    requires var root := ParseEntries(text).result.value;
      "libraryfolders" in root && root["libraryfolders"].Map? ==>
        IsEnumeration(order, root["libraryfolders"].entries.Keys)
    ensures r == ExtractLibraries(ParseEntries(text).result.value, order)
    ensures r != Failure(VdfInvalid)
    ensures r.Failure? <==>
      var root := ParseEntries(text).result.value;
      "libraryfolders" !in root || root["libraryfolders"].Value?
  {
    match ParseEntries(text).result
    case None => Failure(VdfInvalid)
    case Some(root) => ExtractLibraries(root, order)
  }

  /** An installed app: its id, the catalog's bytes for its name, and the
      path of the library it was found in. */
  datatype SteamApp = SteamApp(appId: u32, rawName: seq<byte>, path: Path) {

    /** `SteamApp::app_name`: the name, if its bytes are valid UTF-8. */
    function AppName(): (r: Option<seq<byte>>)
      ensures r.Some? <==> ValidUtf8(rawName)
      ensures r.Some? ==> r.value == rawName
    {
      FromUtf8(rawName)
    }
  }

  /** `Ord for Option<&str>`: `None` first, then names byte by byte. */
  function CmpNames(a: Option<seq<byte>>, b: Option<seq<byte>>): Ordering {
    match (a, b)
    case (None, None) => Equal
    case (None, Some(_)) => Less
    case (Some(_), None) => Greater
    case (Some(x), Some(y)) => LexCmp(x, y)
  }

  /** `PartialEq for SteamApp`: same name (or both without one). */
  predicate AppEq(a: SteamApp, b: SteamApp)
    ensures AppEq(a, b) <==>
      if ValidUtf8(a.rawName) then ValidUtf8(b.rawName) && a.rawName == b.rawName
      else !ValidUtf8(b.rawName)
  {
    a.AppName() == b.AppName()
  }

  /** `Ord for SteamApp`: by name only.  Apps whose bytes are not UTF-8
      come first and tie with each other; the rest compare byte by byte. */
  function AppCmp(a: SteamApp, b: SteamApp): (r: Ordering)
    ensures ValidUtf8(a.rawName) && ValidUtf8(b.rawName) ==> r == LexCmp(a.rawName, b.rawName)
    ensures !ValidUtf8(a.rawName) ==> r == (if ValidUtf8(b.rawName) then Less else Equal)
    ensures ValidUtf8(a.rawName) && !ValidUtf8(b.rawName) ==> r == Greater
  {
    CmpNames(a.AppName(), b.AppName())
  }

  /** `cmp` is a total order that agrees with `eq`, and an app without a
      valid name sorts before every app with one. */
  lemma AppOrder(a: SteamApp, b: SteamApp, c: SteamApp)
    ensures AppCmp(a, b) == Equal <==> AppEq(a, b)
    ensures AppCmp(b, a) == AppCmp(a, b).Reverse()
    ensures AppCmp(a, b) != Greater && AppCmp(b, c) != Greater ==> AppCmp(a, c) != Greater
    ensures a.AppName().None? && b.AppName().Some? ==> AppCmp(a, b) == Less
  {
    if a.AppName().Some? && b.AppName().Some? {
      LexCmpEqual(a.rawName, b.rawName);
      LexCmpAntisymmetric(a.rawName, b.rawName);
    }
    if a.AppName().Some? && b.AppName().Some? && c.AppName().Some?
      && AppCmp(a, b) != Greater && AppCmp(b, c) != Greater
    {
      LexCmpTransitive(a.rawName, b.rawName, c.rawName);
    }
  }

  /** Neither the id nor the path takes part in comparing apps. */
  lemma AppOrderIgnoresIdAndPath(a: SteamApp, b: SteamApp, id: u32, path: Path)
    ensures AppCmp(a.(appId := id, path := path), b) == AppCmp(a, b)
    ensures AppEq(a.(appId := id, path := path), b) == AppEq(a, b)
  {
  }

  /** `m` is the least element of `ids`. */
  predicate IsLeast(m: u32, ids: set<u32>) {
    m in ids && forall x :: x in ids ==> m <= x
  }

  /** The least element of a non-empty set of ids. */
  function MinId(ids: set<u32>): (m: u32)
    requires ids != {}
    ensures m in ids && forall x :: x in ids ==> m <= x
  {
    MinIdExists(ids);
    var m :| IsLeast(m, ids);
    m
  }

  lemma {:induction false} MinIdExists(ids: set<u32>)
    requires ids != {}
    ensures exists m :: IsLeast(m, ids)
  {
    var y :| y in ids;
    var rest := ids - {y};
    if rest == {} {
      forall x | x in ids
        ensures y <= x
      {
        assert x in rest || x == y;
      }
      assert IsLeast(y, ids);
    } else {
      MinIdExists(rest);
      var m :| IsLeast(m, rest);
      var least := if y < m then y else m;
      forall x | x in ids
        ensures least <= x
      {
        assert x in rest || x == y;
      }
      assert IsLeast(least, ids);
    }
  }

  /** The ids of a `HashSet`, visited in ascending order.  The program's
      own order is unspecified; nothing downstream depends on it. */
  function SortedIds(ids: set<u32>): (r: seq<u32>)
    ensures |r| == |ids|
    ensures forall i, j :: 0 <= i < j < |r| ==> r[i] < r[j]
    ensures forall x :: x in ids <==> x in r
    decreases ids
  {
    if ids == {} then []
    else
      var m := MinId(ids);
      [m] + SortedIds(ids - {m})
  }

  /** The inner `filter_map` of `SteamLibraries::apps` over one library's
      ids: an app per id the catalog knows. */
  function AppsOf(ids: seq<u32>, path: Path, store: Store): (r: seq<SteamApp>)
    ensures |r| <= |ids|
    ensures forall a :: a in r <==>
      exists i :: 0 <= i < |ids| && LeBytes(ids[i]) in store
                                  && a == SteamApp(ids[i], store[LeBytes(ids[i])], path)
  {
    if |ids| == 0 then []
    else
      var rest := AppsOf(ids[1..], path, store);
      match Get(store, ids[0])
      case None => rest
      case Some(name) => [SteamApp(ids[0], name, path)] + rest
  }

  /** An app of one library: one of its ids that the catalog knows, with
      that library's path. */
  predicate InLibrary(a: SteamApp, lib: SteamLibrary, store: Store) {
    a.path == lib.path && a.appId in lib.games && Get(store, a.appId) == Some(a.rawName)
  }

  /** Every app of `r` comes from one of `libs`. */
  predicate FromLibraries(r: seq<SteamApp>, libs: seq<SteamLibrary>, store: Store) {
    forall a :: a in r ==> exists j :: 0 <= j < |libs| && InLibrary(a, libs[j], store)
  }

  /** `SteamLibraries::apps`: every (library, id) pair whose id the catalog
      knows, carrying that library's path.  Names are not checked here.
      `AppsMembers` states the converse, and `AppsMultiplicity` how often
      each app occurs. */
  function Apps(libs: seq<SteamLibrary>, store: Store): (r: seq<SteamApp>)
    ensures FromLibraries(r, libs, store)
  {
    if |libs| == 0 then []
    else
      var here := AppsOf(SortedIds(libs[0].games), libs[0].path, store);
      var rest := Apps(libs[1..], store);
      LibraryAppsMembers(libs[0], store);
      ConcatFromLibraries(here, rest, libs, store);
      here + rest
  }

  /** The apps of the first library followed by the apps of the others all
      come from some library. */
  lemma ConcatFromLibraries(here: seq<SteamApp>, rest: seq<SteamApp>, libs: seq<SteamLibrary>, store: Store)
    requires |libs| > 0
    requires forall a :: a in here ==> InLibrary(a, libs[0], store)
    requires FromLibraries(rest, libs[1..], store)
    ensures FromLibraries(here + rest, libs, store)
  {
    forall a | a in here + rest
      ensures exists j :: 0 <= j < |libs| && InLibrary(a, libs[j], store)
    {
      if a in here {
        assert InLibrary(a, libs[0], store);
      } else {
        var j :| 0 <= j < |libs[1..]| && InLibrary(a, libs[1..][j], store);
        assert libs[1..][j] == libs[j + 1];
        assert InLibrary(a, libs[j + 1], store);
      }
    }
  }

  /** The apps of one library are exactly its known ids. */
  lemma LibraryAppsMembers(lib: SteamLibrary, store: Store)
    ensures forall a :: a in AppsOf(SortedIds(lib.games), lib.path, store) <==> InLibrary(a, lib, store)
  {
    var ids := SortedIds(lib.games);
    forall a | InLibrary(a, lib, store)
      ensures a in AppsOf(ids, lib.path, store)
    {
      assert a.appId in ids;
      var i :| 0 <= i < |ids| && ids[i] == a.appId;
    }
  }

  /** `SteamLibraries::apps` yields exactly the (library, id) pairs whose
      id the catalog knows, each carrying that library's path.  Names are
      not checked here. */
  lemma {:induction false} AppsMembers(libs: seq<SteamLibrary>, store: Store)
    ensures forall a :: a in Apps(libs, store) <==>
      exists i :: 0 <= i < |libs| && InLibrary(a, libs[i], store)
  {
    if |libs| > 0 {
      var tail := libs[1..];
      AppsMembers(tail, store);
      LibraryAppsMembers(libs[0], store);
      var here := AppsOf(SortedIds(libs[0].games), libs[0].path, store);
      assert Apps(libs, store) == here + Apps(tail, store);
      forall a | a in Apps(libs, store)
        ensures exists i :: 0 <= i < |libs| && InLibrary(a, libs[i], store)
      {
        if a in here {
          assert InLibrary(a, libs[0], store);
        } else {
          var i :| 0 <= i < |tail| && InLibrary(a, tail[i], store);
          assert InLibrary(a, libs[i + 1], store);
        }
      }
      forall a | exists i :: 0 <= i < |libs| && InLibrary(a, libs[i], store)
        ensures a in Apps(libs, store)
      {
        var i :| 0 <= i < |libs| && InLibrary(a, libs[i], store);
        if i == 0 {
          assert a in here;
        } else {
          assert InLibrary(a, tail[i - 1], store);
          assert a in Apps(tail, store);
        }
      }
    }
  }

  /** Within one library every known id yields exactly one app. */
  lemma {:induction false} AppsOfCount(ids: seq<u32>, path: Path, store: Store)
    requires forall i, j :: 0 <= i < j < |ids| ==> ids[i] != ids[j]
    ensures |AppsOf(ids, path, store)| == |set id | id in ids && LeBytes(id) in store|
  {
    var known := set id | id in ids && LeBytes(id) in store;
    if |ids| == 0 {
      assert known == {};
    } else {
      var tail := ids[1..];
      var knownTail := set id | id in tail && LeBytes(id) in store;
      AppsOfCount(tail, path, store);
      assert ids[0] !in tail;
      assert forall id :: id in ids <==> id == ids[0] || id in tail;
      if LeBytes(ids[0]) in store {
        assert known == knownTail + {ids[0]};
      } else {
        assert known == knownTail;
      }
    }
  }

  /** A library contributes one app per id of its set that the catalog
      knows; ids missing from the catalog are dropped silently. */
  lemma LibraryAppsCount(lib: SteamLibrary, store: Store)
    ensures |AppsOf(SortedIds(lib.games), lib.path, store)|
         == |set id | id in lib.games && Get(store, id).Some?|
  {
    var ids := SortedIds(lib.games);
    AppsOfCount(ids, lib.path, store);
    assert (set id | id in ids && LeBytes(id) in store)
        == set id | id in lib.games && Get(store, id).Some?;
  }

  /** How many of `libs` hold `a`: the multiplicity the join gives it. */
  function Holders(a: SteamApp, libs: seq<SteamLibrary>, store: Store): nat {
    if |libs| == 0 then 0
    else (if InLibrary(a, libs[0], store) then 1 else 0) + Holders(a, libs[1..], store)
  }

  /** The number of ids each library holds that the catalog knows, summed
      over the libraries. */
  function KnownTotal(libs: seq<SteamLibrary>, store: Store): nat {
    if |libs| == 0 then 0
    else |set id | id in libs[0].games && Get(store, id).Some?| + KnownTotal(libs[1..], store)
  }

  /** Over distinct ids, every app occurs at most once, and exactly once when
      its id is among them, the catalog stores its name, and its path is
      `path`. */
  lemma {:induction false} AppsOfOnce(ids: seq<u32>, path: Path, store: Store, a: SteamApp)
    requires forall i, j :: 0 <= i < j < |ids| ==> ids[i] != ids[j]
    ensures multiset(AppsOf(ids, path, store))[a]
         == if a.path == path && a.appId in ids && Get(store, a.appId) == Some(a.rawName) then 1 else 0
  {
    if |ids| > 0 {
      var tail := ids[1..];
      AppsOfOnce(tail, path, store, a);
      assert forall id :: id in ids <==> id == ids[0] || id in tail;
      assert ids[0] !in tail;
      var rest := AppsOf(tail, path, store);
      match Get(store, ids[0])
      case None =>
        assert AppsOf(ids, path, store) == rest;
      case Some(name) =>
        assert AppsOf(ids, path, store) == [SteamApp(ids[0], name, path)] + rest;
        assert multiset(AppsOf(ids, path, store)) == multiset{SteamApp(ids[0], name, path)} + multiset(rest);
    }
  }

  /** `SteamLibraries::apps` lists an app once for every library holding
      it: no more, no fewer. */
  lemma {:induction false} AppsMultiplicity(libs: seq<SteamLibrary>, store: Store)
    ensures forall a :: multiset(Apps(libs, store))[a] == Holders(a, libs, store)
  {
    if |libs| > 0 {
      var here := AppsOf(SortedIds(libs[0].games), libs[0].path, store);
      AppsMultiplicity(libs[1..], store);
      assert Apps(libs, store) == here + Apps(libs[1..], store);
      forall a
        ensures multiset(Apps(libs, store))[a] == Holders(a, libs, store)
      {
        AppsOfOnce(SortedIds(libs[0].games), libs[0].path, store, a);
      }
    }
  }

  /** The join has one app per (library, known id) pair. */
  lemma {:induction false} AppsCount(libs: seq<SteamLibrary>, store: Store)
    ensures |Apps(libs, store)| == KnownTotal(libs, store)
  {
    if |libs| > 0 {
      LibraryAppsCount(libs[0], store);
      AppsCount(libs[1..], store);
    }
  }
}

=== FILE: numbers.dfy ===
/** Integer widths and the decimal text of integers, as Rust's standard
    library defines them: `u8`, `u32`, `format!("{}", n)` and
    `str::parse::<u32>()`. */
module Numbers {
  import opened Wrappers

  type byte = x: int | 0 <= x < 0x100
  type u32 = x: int | 0 <= x < 0x1_0000_0000

  predicate IsDigit(c: char) {
    '0' <= c <= '9'
  }

  predicate AllDigits(s: string) {
    forall i :: 0 <= i < |s| ==> IsDigit(s[i])
  }

  function DigitValue(c: char): nat
    requires IsDigit(c)
  {
    c as int - '0' as int
  }

  function Digit(d: nat): (c: char)
    requires d < 10
    ensures IsDigit(c) && DigitValue(c) == d
  {
    ('0' as int + d) as char
  }

  /** The number a string of decimal digits denotes. */
  function DecimalValue(s: string): nat
    requires AllDigits(s)
  {
    if |s| == 0 then 0 else DecimalValue(s[..|s| - 1]) * 10 + DigitValue(s[|s| - 1])
  }

  /** `format!("{}", n)`: the shortest decimal text of `n`. */
  function Decimal(n: nat): (s: string)
    ensures |s| > 0 && AllDigits(s)
    ensures s[0] == '0' ==> n == 0
  {
    if n < 10 then [Digit(n)] else Decimal(n / 10) + [Digit(n % 10)]
  }

  lemma {:induction false} DecimalValueOfDecimal(n: nat)
    ensures DecimalValue(Decimal(n)) == n
  {
    if n >= 10 {
      var s := Decimal(n);
      assert s[..|s| - 1] == Decimal(n / 10);
      DecimalValueOfDecimal(n / 10);
    }
  }

  /** `str::parse::<u32>()`: an optional `+` then one or more ASCII digits
      whose value fits in 32 bits.  No `-`, no whitespace, no empty string. */
  function ParseU32(s: string): (r: Option<u32>)
    ensures r.Some? ==> |s| > 0 && (IsDigit(s[0]) || (s[0] == '+' && |s| > 1))
    ensures r.Some? && s[0] != '+' ==> AllDigits(s) && r.value == DecimalValue(s)
    ensures '-' in s ==> r.None?
    ensures var d := if |s| > 1 && s[0] == '+' then s[1..] else s;
      && (r.Some? <==> |d| > 0 && AllDigits(d) && DecimalValue(d) < 0x1_0000_0000)
      && (r.Some? ==> r.value == DecimalValue(d))
  {
    var digits := if |s| > 1 && s[0] == '+' then s[1..] else s;
    if |digits| == 0 || !AllDigits(digits) then None
    else
      var n := DecimalValue(digits);
      if n < 0x1_0000_0000 then Some(n) else None
  }

  /** An id printed with `format!` parses back to itself: the decimal codec
      round-trips on `u32`. */
  lemma ParseDecimal(n: u32)
    ensures ParseU32(Decimal(n)) == Some(n)
  {
    DecimalValueOfDecimal(n);
  }

  /** A leading `+` is accepted, as Rust's integer parsing does. */
  lemma ParsePlusDecimal(n: u32)
    ensures ParseU32("+" + Decimal(n)) == Some(n)
  {
    DecimalValueOfDecimal(n);
    assert ("+" + Decimal(n))[1..] == Decimal(n);
  }

  /** Leading zeros are accepted and do not change the value. */
  lemma ParseLeadingZero()
    ensures ParseU32("010") == Some(10)
    ensures ParseU32("+010") == Some(10)
  {
    var s := "010";
    assert AllDigits(s);
    assert s[..2] == "01" && s[..2][..1] == "0" && s[..2][..1][..0] == [];
    assert DecimalValue(s) == DecimalValue("01") * 10 + 0;
    assert DecimalValue("01") == DecimalValue("0") * 10 + 1;
    assert DecimalValue("0") == DecimalValue([]) * 10 + 0;
    assert "+010"[1..] == s;
  }

  /** One past the largest `u32` does not parse. */
  lemma ParseOverflow()
    ensures ParseU32(Decimal(0x1_0000_0000)) == None
  {
    DecimalValueOfDecimal(0x1_0000_0000);
  }
}

=== FILE: paths.dfy ===
/** Just enough of `std::path::PathBuf`: a path parsed from text, extended by
    relative components with `join`. */
module Paths {

  /** `root` is the text the path was parsed from; `components` are the
      relative parts joined onto it, in order. */
  datatype Path = Path(root: string, components: seq<string>)

  /** `str::parse::<PathBuf>()`, which cannot fail. */
  function Parse(text: string): (p: Path)
    ensures p.root == text && p.components == []
  {
    Path(text, [])
  }

  /** `Path::join` with a relative component: appended at the end. */
  function Join(p: Path, component: string): (r: Path)
    ensures r.root == p.root
    ensures r.components == p.components + [component]
  {
    Path(p.root, p.components + [component])
  }
}

=== FILE: scenarios.dfy ===
/** Concrete runs on a small catalog: a `libraryfolders.vdf` followed from
    its text to the installed apps, the compat path, and the `id-of` order. */
module Scenarios {
  import opened Wrappers
  import opened Numbers
  import opened Str
  import opened Catalog
  import opened Paths
  import opened Vdf
  import opened VdfPrint
  import opened VdfFacts
  import opened Library
  import opened Commands

  const GamesRoot: string := "/home/user/games"

  /** `Half-Life` and `Portal` in ASCII. */
  const HalfLife: seq<byte> := [0x48, 0x61, 0x6C, 0x66, 0x2D, 0x4C, 0x69, 0x66, 0x65]
  const Portal: seq<byte> := [0x50, 0x6F, 0x72, 0x74, 0x61, 0x6C]

  const TwoGames: Store := map[LeBytes(10) := HalfLife, LeBytes(20) := Portal]

  lemma SortedTenTwenty()
    ensures SortedIds({10, 20}) == [10, 20]
  {
    var r := SortedIds({10, 20});
    assert 10 in r && 20 in r;
  }

  /** One library holding ids 10 and 20, both in the catalog, yields one
      app per id, each carrying the library's path. */
  lemma TwoGamesJoin()
    ensures Apps([SteamLibrary(Parse(GamesRoot), {10, 20})], TwoGames)
         == [SteamApp(10, HalfLife, Parse(GamesRoot)), SteamApp(20, Portal, Parse(GamesRoot))]
  {
    var lib := SteamLibrary(Parse(GamesRoot), {10, 20});
    assert Apps([lib], TwoGames) == AppsOf(SortedIds(lib.games), lib.path, TwoGames) + Apps([], TwoGames);
    SortedTenTwenty();
    assert LeBytes(10) == [10, 0, 0, 0];
    assert LeBytes(20) == [20, 0, 0, 0];
  }

  lemma CompatTen()
    ensures CompatPath(Parse(GamesRoot), 10, false) == Path(GamesRoot, ["steamapps", "compatdata", "10"])
    ensures CompatPath(Parse(GamesRoot), 10, true)
         == Path(GamesRoot, ["steamapps", "compatdata", "10", "pfx", "drive_c"])
  {
    assert Decimal(10) == "10";
  }

  /** Two pairs with the same name leave the heap of `id-of` greater id
      first. */
  lemma IdOrderTies(out: seq<IdEntry>, name: seq<byte>)
    requires IdOrdered(out)
    requires multiset(out) == multiset{IdEntry(name, 10), IdEntry(name, 20)}
    ensures out == [IdEntry(name, 20), IdEntry(name, 10)]
  {
    assert |out| == |multiset(out)| == 2;
    assert out[0] in multiset(out) && out[1] in multiset(out);
    LexCmpEqual(name, name);
  }

  /** An entry `"key" "text"` with one space in front of each part. */
  function Pair(key: string, text: string): DocEntry {
    DocEntry(" ", key, " ", Leaf(text))
  }

  const AppsDoc: seq<DocEntry> := [Pair(Decimal(10), "0"), Pair(Decimal(20), "0")]

  const LibraryDoc: seq<DocEntry> :=
    [Pair("path", GamesRoot), DocEntry(" ", "apps", " ", Group(AppsDoc, " "))]

  /** A `libraryfolders.vdf` as the printer lays it out: one library at
      `GamesRoot` whose `"apps"` lists ids 10 and 20. */
  const FoldersDoc: seq<DocEntry> :=
    [DocEntry("", "libraryfolders", " ", Group([DocEntry(" ", "0", " ", Group(LibraryDoc, " "))], " "))]

  const AppsTree: Vdf := map[Decimal(10) := Value("0"), Decimal(20) := Value("0")]

  const LibraryTree: Vdf := map["path" := Value(GamesRoot), "apps" := Map(AppsTree)]

  const FoldersTree: Vdf := map["libraryfolders" := Map(map["0" := Map(LibraryTree)])]

  lemma FoldersPrintable()
    ensures forall i :: 0 <= i < |FoldersDoc| ==> PrintableEntry(FoldersDoc[i])
  {
    assert AllWhitespace(" ") && AllWhitespace("");
    assert PrintableEntry(AppsDoc[0]) && PrintableEntry(AppsDoc[1]);
    assert Printable(Group(AppsDoc, " "));
    assert PrintableEntry(LibraryDoc[0]) && PrintableEntry(LibraryDoc[1]);
    assert Printable(Group(LibraryDoc, " "));
    var lib := DocEntry(" ", "0", " ", Group(LibraryDoc, " "));
    assert PrintableEntry(lib);
    assert Printable(Group([lib], " "));
    assert PrintableEntry(FoldersDoc[0]);
  }

  lemma PairsMeaning(a: DocEntry, b: DocEntry)
    ensures Collect(ToEntries([a, b]))
         == map[a.key := ToValue(a.value)][b.key := ToValue(b.value)]
  {
    var es := ToEntries([a, b]);
    assert [a, b][1..] == [b];
    assert ToEntries([b]) == [(b.key, ToValue(b.value))];
    assert es == [(a.key, ToValue(a.value)), (b.key, ToValue(b.value))];
    CollectSnoc([], a.key, ToValue(a.value));
    assert es == [(a.key, ToValue(a.value))] + [(b.key, ToValue(b.value))];
    CollectSnoc([(a.key, ToValue(a.value))], b.key, ToValue(b.value));
  }

  lemma SingleMeaning(a: DocEntry)
    ensures Collect(ToEntries([a])) == map[a.key := ToValue(a.value)]
  {
    CollectSnoc([], a.key, ToValue(a.value));
  }

  lemma FoldersMeaning()
    ensures ToValue(Group(FoldersDoc, "")).entries == FoldersTree
  {
    PairsMeaning(AppsDoc[0], AppsDoc[1]);
    assert AppsDoc == [AppsDoc[0], AppsDoc[1]];
    PairsMeaning(LibraryDoc[0], LibraryDoc[1]);
    assert LibraryDoc == [LibraryDoc[0], LibraryDoc[1]];
    var lib := DocEntry(" ", "0", " ", Group(LibraryDoc, " "));
    SingleMeaning(lib);
    SingleMeaning(FoldersDoc[0]);
    assert FoldersDoc == [FoldersDoc[0]];
  }

  /** The file parses to the tree it was printed from. */
  lemma FoldersParse()
    ensures ParseEntries(PrintEntries(FoldersDoc)) == Parsed(Some(FoldersTree), "")
  {
    FoldersPrintable();
    FoldersMeaning();
    EmptyTail(PrintEntries(FoldersDoc));
    RoundTrip(FoldersDoc, "");
  }

  /** Two ids written as `"apps"` keys are exactly the library's ids. */
  lemma GamesOfTwo(a: u32, b: u32, v: VdfValue)
    ensures GamesOf(map[Decimal(a) := v, Decimal(b) := v]) == {a, b}
  {
    var apps := map[Decimal(a) := v, Decimal(b) := v];
    var g := GamesOf(apps);
    ParseDecimal(a);
    ParseDecimal(b);
    assert a in g by { assert Decimal(a) in apps; }
    assert b in g by { assert Decimal(b) in apps; }
    forall id | id in g
      ensures id == a || id == b
    {
      var k :| k in apps && ParseU32(k) == Some(id);
      assert k == Decimal(a) || k == Decimal(b);
    }
  }

  const GamesLibrary: SteamLibrary := SteamLibrary(Parse(GamesRoot), {10, 20})

  /** The tree holds one usable library: the one at `GamesRoot` with ids 10
      and 20. */
  lemma FoldersExtract()
    ensures ExtractLibraries(FoldersTree, ["0"]) == Success([GamesLibrary])
  {
    var folders := map["0" := Map(LibraryTree)];
    assert FoldersTree["libraryfolders"] == Map(folders);
    LibraryTreeOf();
    assert ["0"][1..] == [];
    assert KeepLibraries(folders, ["0"]) == [GamesLibrary];
  }

  /** The library entry of the tree is the library at `GamesRoot`. */
  lemma LibraryTreeOf()
    ensures LibraryOf(Map(LibraryTree)) == Some(GamesLibrary)
  {
    GamesOfTwo(10, 20, Value("0"));
  }

  /** From the text of the file to the installed apps: loading finds the one
      library, and joining its ids against `TwoGames` gives both apps with
      the library's path. */
  lemma FoldersToApps()
    ensures ParseEntries(PrintEntries(FoldersDoc)).result == Some(FoldersTree)
    ensures LoadSteamLibraries(PrintEntries(FoldersDoc), ["0"]) == Success([GamesLibrary])
    ensures Apps(LoadSteamLibraries(PrintEntries(FoldersDoc), ["0"]).value, TwoGames)
         == [SteamApp(10, HalfLife, Parse(GamesRoot)), SteamApp(20, Portal, Parse(GamesRoot))]
  {
    FoldersParse();
    FoldersExtract();
    TwoGamesJoin();
  }
}

=== FILE: str.dfy ===
/** Rust's `str` as the rest of the model needs it: bytes that are valid
    UTF-8 (`std::str::from_utf8`), compared byte by byte (`Ord for str`). */
module Str {
  import opened Wrappers
  import opened Numbers

  predicate InRange(b: byte, lo: int, hi: int) {
    lo <= b <= hi
  }

  predicate Cont(b: byte) {
    InRange(b, 0x80, 0xBF)
  }

  /** The length of the well-formed UTF-8 sequence at the front of `b`, or 0
      when `b` does not start with one (table 3-7 of the Unicode Standard,
      which `from_utf8` checks). */
  function SeqWidth(b: seq<byte>): (n: nat)
    ensures n <= 4 && n <= |b|
  {
    if |b| == 0 then 0
    else if b[0] <= 0x7F then 1
    else if |b| >= 2 && InRange(b[0], 0xC2, 0xDF) && Cont(b[1]) then 2
    else if |b| >= 3 && b[0] == 0xE0 && InRange(b[1], 0xA0, 0xBF) && Cont(b[2]) then 3
    else if |b| >= 3 && (InRange(b[0], 0xE1, 0xEC) || InRange(b[0], 0xEE, 0xEF))
         && Cont(b[1]) && Cont(b[2]) then 3
    else if |b| >= 3 && b[0] == 0xED && InRange(b[1], 0x80, 0x9F) && Cont(b[2]) then 3
    else if |b| >= 4 && b[0] == 0xF0 && InRange(b[1], 0x90, 0xBF) && Cont(b[2]) && Cont(b[3]) then 4
    else if |b| >= 4 && InRange(b[0], 0xF1, 0xF3) && Cont(b[1]) && Cont(b[2]) && Cont(b[3]) then 4
    else if |b| >= 4 && b[0] == 0xF4 && InRange(b[1], 0x80, 0x8F) && Cont(b[2]) && Cont(b[3]) then 4
    else 0
  }

  /** `std::str::from_utf8(b).is_ok()`. */
  predicate ValidUtf8(b: seq<byte>)
    decreases |b|
  {
    |b| == 0 || (SeqWidth(b) > 0 && ValidUtf8(b[SeqWidth(b)..]))
  }

  /** `std::str::from_utf8`: the same bytes viewed as a `str`, if valid. */
  function FromUtf8(b: seq<byte>): (r: Option<seq<byte>>)
    ensures r.Some? <==> ValidUtf8(b)
    ensures r.Some? ==> r.value == b
  {
    if ValidUtf8(b) then Some(b) else None
  }

  /** The UTF-8 encoding of one Unicode scalar value (what `str::as_bytes`
      holds for it), an independent description of valid text. */
  function EncodeChar(c: char): (b: seq<byte>)
    ensures 1 <= |b| <= 4
  {
    var n := c as int;
    if n < 0x80 then [n]
    else if n < 0x800 then [0xC0 + n / 0x40, 0x80 + n % 0x40]
    else if n < 0x1_0000 then [0xE0 + n / 0x1000, 0x80 + (n / 0x40) % 0x40, 0x80 + n % 0x40]
    else [0xF0 + n / 0x4_0000, 0x80 + (n / 0x1000) % 0x40, 0x80 + (n / 0x40) % 0x40, 0x80 + n % 0x40]
  }

  function Encode(s: string): seq<byte> {
    if |s| == 0 then [] else EncodeChar(s[0]) + Encode(s[1..])
  }

  /** The encoding of a character is exactly one well-formed sequence. */
  lemma EncodeCharWidth(c: char, rest: seq<byte>)
    ensures SeqWidth(EncodeChar(c) + rest) == |EncodeChar(c)|
  {
    var n := c as int;
    var b := EncodeChar(c) + rest;
    if n >= 0x800 && n < 0x1_0000 {
      assert !(0xD800 <= n < 0xE000);
      if n / 0x1000 == 0 {
        assert b[1] >= 0xA0;
      } else if n / 0x1000 == 0xD {
        assert b[1] <= 0x9F;
      }
    } else if n >= 0x1_0000 {
      if n / 0x4_0000 == 0 {
        assert b[1] >= 0x90;
      } else if n / 0x4_0000 == 4 {
        assert b[1] <= 0x8F;
      }
    }
  }

  /** Every encoded string is valid UTF-8: `from_utf8` accepts whatever
      `String::as_bytes` produced. */
  lemma {:induction false} EncodeValid(s: string)
    ensures ValidUtf8(Encode(s))
  {
    if |s| > 0 {
      var e := EncodeChar(s[0]);
      var b := Encode(s);
      assert b == e + Encode(s[1..]);
      EncodeCharWidth(s[0], Encode(s[1..]));
      assert b[|e|..] == Encode(s[1..]);
      EncodeValid(s[1..]);
    }
  }

  /** `Ord for [u8]` (and so for `str`): the first differing byte decides,
      and a proper prefix comes first. */
  function LexCmp(a: seq<byte>, b: seq<byte>): Ordering {
    if |a| == 0 then (if |b| == 0 then Equal else Less)
    else if |b| == 0 then Greater
    else if a[0] < b[0] then Less
    else if a[0] > b[0] then Greater
    else LexCmp(a[1..], b[1..])
  }

  lemma {:induction false} LexCmpEqual(a: seq<byte>, b: seq<byte>)
    ensures LexCmp(a, b) == Equal <==> a == b
  {
    if |a| > 0 && |b| > 0 && a[0] == b[0] {
      LexCmpEqual(a[1..], b[1..]);
      if a[1..] == b[1..] {
        assert a == [a[0]] + a[1..] && b == [b[0]] + b[1..];
      }
    }
  }

  lemma {:induction false} LexCmpAntisymmetric(a: seq<byte>, b: seq<byte>)
    ensures LexCmp(b, a) == LexCmp(a, b).Reverse()
  {
    if |a| > 0 && |b| > 0 && a[0] == b[0] {
      LexCmpAntisymmetric(a[1..], b[1..]);
    }
  }

  lemma {:induction false} LexCmpTransitive(a: seq<byte>, b: seq<byte>, c: seq<byte>)
    requires LexCmp(a, b) != Greater && LexCmp(b, c) != Greater
    ensures LexCmp(a, c) != Greater
    ensures LexCmp(a, b) == Less || LexCmp(b, c) == Less ==> LexCmp(a, c) == Less
  {
    if |a| > 0 && |b| > 0 && |c| > 0 && a[0] == b[0] == c[0] {
      LexCmpTransitive(a[1..], b[1..], c[1..]);
    }
  }
}

=== FILE: vdf.dfy ===
/** The VDF recursive-descent parser of `src/vdf.rs`.

    The Rust parser is a struct holding a cursor `s`, the unparsed suffix of the
    input, that every sub-parser advances.  Here each sub-parser is a pure
    function from the cursor before the call to a `Parsed` pair: the result
    (`None` on failure) and the cursor after the call.  Keeping the cursor on
    failure makes visible what a failed sub-parser consumes, which is where
    the sub-parsers differ: `ParseChar` and `ParseMap` give back everything,
    `ParseLitStr` and `ParseEntry` do not. */
module Vdf {
  import opened Wrappers

  /** One level of a parsed document: key to value. */
  type Vdf = map<string, VdfValue>

  /** A parsed value: a quoted string, or a brace-delimited group of entries. */
  datatype VdfValue = Value(text: string) | Map(entries: Vdf) {

    /** `VdfValue::as_value`: the string of a `Value`, nothing for a `Map`. */
    function AsValue(): (r: Option<string>)
      ensures r.Some? <==> Value?
      ensures Value? ==> r == Some(text)
    {
      match this
      case Value(t) => Some(t)
      case Map(_) => None
    }

    /** `VdfValue::as_map`: the entries of a `Map`, nothing for a `Value`. */
    function AsMap(): (r: Option<Vdf>)
      ensures r.Some? <==> Map?
      ensures Map? ==> r == Some(entries)
    {
      match this
      case Value(_) => None
      case Map(m) => Some(m)
    }
  }

  /** An outcome of a sub-parser together with the cursor it leaves behind. */
  datatype Parsed<+T> = Parsed(result: Option<T>, rest: string)

  /** What the `from_fn(parse_entry)` iterator yields before it stops, and the
      cursor it stops at. */
  datatype Collected = Collected(entries: seq<(string, VdfValue)>, rest: string)

  /** `t` is a suffix of `s`: the cursor only ever moves forward. */
  predicate IsSuffix(t: string, s: string) {
    |t| <= |s| && s[|s| - |t|..] == t
  }

  lemma SuffixTransitive(a: string, b: string, c: string)
    requires IsSuffix(a, b) && IsSuffix(b, c)
    ensures IsSuffix(a, c)
  {
    assert c[|c| - |a|..] == c[|c| - |b|..][|b| - |a|..];
  }

  /** Rust's `char::is_whitespace`, the Unicode White_Space property. */
  predicate IsWhitespace(c: char) {
    || c == ' ' || ('\t' <= c <= '\r')
    || c == '\U{85}' || c == '\U{A0}' || c == '\U{1680}'
    || ('\U{2000}' <= c <= '\U{200A}')
    || c == '\U{2028}' || c == '\U{2029}' || c == '\U{202F}' || c == '\U{205F}'
    || c == '\U{3000}'
  }

  predicate AllWhitespace(s: string) {
    forall i :: 0 <= i < |s| ==> IsWhitespace(s[i])
  }

  /** `str::trim_start`: drop the leading whitespace, and nothing else. */
  function TrimStart(s: string): (r: string)
    ensures IsSuffix(r, s)
    ensures AllWhitespace(s[..|s| - |r|])
    ensures |r| > 0 ==> !IsWhitespace(r[0])
  {
    if |s| > 0 && IsWhitespace(s[0]) then TrimStart(s[1..]) else s
  }

  /** `split_char`: the first character after the leading whitespace, and what
      follows it.  Nothing when the input is all whitespace. */
  function SplitChar(s: string): (r: Option<(char, string)>)
    ensures r.None? <==> AllWhitespace(s)
    ensures r.Some? ==>
      && |r.value.1| < |s|
      && IsSuffix(r.value.1, s)
      && s[|s| - |r.value.1| - 1] == r.value.0
      && !IsWhitespace(r.value.0)
      && AllWhitespace(s[..|s| - |r.value.1| - 1])
  {
    var t := TrimStart(s);
    if |t| == 0 then None else Some((t[0], t[1..]))
  }

  /** True when the next token (after whitespace) is an opening quote: the
      only way a `parse_entry` can begin to succeed. */
  predicate StartsWithQuote(s: string) {
    var t := TrimStart(s);
    |t| > 0 && t[0] == '"'
  }

  /** `parse_char(ch)`: on success, skip the leading whitespace and exactly one
      `ch`; on failure, consume nothing. */
  function ParseChar(s: string, ch: char): (r: Parsed<()>)
    ensures r.result.None? ==> r.rest == s
    ensures r.result.Some? <==> SplitChar(s).Some? && SplitChar(s).value.0 == ch
    ensures r.result.Some? ==> |r.rest| < |s| && CharShape(s, ch, r.rest)
  {
    match SplitChar(s)
    case None => Parsed(None, s)
    case Some((c, after)) => if c == ch then Parsed(Some(()), after) else Parsed(None, s)
  }

  /** `s` is some whitespace, then `ch`, then `rest`. */
  predicate CharShape(s: string, ch: char, rest: string)
    requires |rest| < |s|
  {
    var n := |s| - |rest| - 1;
    && AllWhitespace(s[..n])
    && s[n] == ch
    && s[n + 1..] == rest
  }

  /** `str::split_once(c)` on a single character: the text before the first
      `c` and the text after it. */
  function SplitOnce(s: string, c: char): (r: Option<(string, string)>)
    ensures r.None? <==> c !in s
    ensures r.Some? ==>
      && c !in r.value.0
      && s == r.value.0 + [c] + r.value.1
  {
    if |s| == 0 then None
    else if s[0] == c then Some(([], s[1..]))
    else match SplitOnce(s[1..], c)
      case None => None
      case Some((lhs, rhs)) => Some(([s[0]] + lhs, rhs))
  }

  /** `parse_lit_str`: a quoted string, with no escapes and no trimming.
      A missing closing quote fails AFTER the opening quote is consumed. */
  function ParseLitStr(s: string): (r: Parsed<string>)
    ensures IsSuffix(r.rest, s)
    ensures r.result.Some? ==>
      && '"' !in r.result.value
      && |r.rest| + |r.result.value| + 2 <= |s|
      && LitStrShape(s, r.result.value, r.rest)
    ensures r.result.None? ==> !StartsWithQuote(r.rest)
    ensures !StartsWithQuote(s) ==> r == Parsed(None, s)
    ensures StartsWithQuote(s) && r.result.None? ==>
      && |r.rest| < |s| && CharShape(s, '"', r.rest)
      && '"' !in r.rest
  {
    var open := ParseChar(s, '"');
    if open.result.None? then Parsed(None, open.rest)
    else
      var split := SplitOnce(open.rest, '"');
      if split.None? then NoQuoteNoStart(open.rest); Parsed(None, open.rest)
      else
        var (lhs, rhs) := split.value;
        LitStrShapeOf(s, open.rest, lhs, rhs);
        Parsed(Some(lhs), rhs)
  }

  /** `s` is some whitespace, then `"text"`, then `rest`. */
  predicate LitStrShape(s: string, text: string, rest: string)
    requires |rest| + |text| + 2 <= |s|
  {
    var n := |s| - |rest| - |text| - 2;
    && AllWhitespace(s[..n])
    && s[n..] == ['"'] + text + ['"'] + rest
  }

  lemma LitStrShapeOf(s: string, afterQuote: string, lhs: string, rhs: string)
    requires |afterQuote| < |s| && CharShape(s, '"', afterQuote)
    requires afterQuote == lhs + ['"'] + rhs
    ensures |rhs| + |lhs| + 2 <= |s|
    ensures IsSuffix(rhs, s)
    ensures LitStrShape(s, lhs, rhs)
  {
    var n := |s| - |afterQuote| - 1;
    assert s[n..] == [s[n]] + s[n + 1..];
  }

  /** A cursor with no quote at all cannot start with one. */
  lemma NoQuoteNoStart(s: string)
    requires '"' !in s
    ensures !StartsWithQuote(s)
  {
    var t := TrimStart(s);
    if |t| > 0 {
      assert t[0] == s[|s| - |t|];
    }
  }

  /** `parse_value`: a quoted string, else a map.  When `ParseLitStr` has
      already swallowed an opening quote, the map is tried after it. */
  function ParseValue(s: string): (r: Parsed<VdfValue>)
    decreases |s|, 1
    ensures IsSuffix(r.rest, s)
    ensures r.result.Some? ==> |r.rest| < |s|
    ensures r.result.None? ==> !StartsWithQuote(r.rest)
    ensures r.result.None? ==>
      if StartsWithQuote(s) then |r.rest| < |s| && CharShape(s, '"', r.rest)
      else r.rest == s
  {
    var lit := ParseLitStr(s);
    if lit.result.Some? then Parsed(Some(Value(lit.result.value)), lit.rest)
    else
      var m := ParseMap(lit.rest);
      SuffixTransitive(m.rest, lit.rest, s);
      if m.result.Some? then Parsed(Some(Map(m.result.value)), m.rest)
      else Parsed(None, m.rest)
  }

  /** `parse_map`: `{`, entries, `}`.  On any failure the cursor is put back
      where it was before the call. */
  function ParseMap(s: string): (r: Parsed<Vdf>)
    decreases |s|, 0
    ensures IsSuffix(r.rest, s)
    ensures r.result.None? ==> r.rest == s
    ensures r.result.Some? ==> |r.rest| + 2 <= |s|
  {
    var open := ParseChar(s, '{');
    if open.result.None? then Parsed(None, s)
    else
      var inner := ParseEntries(open.rest);
      var close := ParseChar(inner.rest, '}');
      if close.result.Some? then
        SuffixTransitive(close.rest, inner.rest, open.rest);
        SuffixTransitive(close.rest, open.rest, s);
        Parsed(Some(inner.result.value), close.rest)
      else Parsed(None, s)
  }

  /** `parse_entry`: a quoted key followed by a value.  A key that parsed
      stays consumed when the value then fails. */
  function ParseEntry(s: string): (r: Parsed<(string, VdfValue)>)
    decreases |s|, 2
    ensures IsSuffix(r.rest, s)
    ensures r.result.Some? ==> |r.rest| < |s|
    ensures r.result.None? ==> !StartsWithQuote(r.rest)
    ensures !StartsWithQuote(s) ==> r == Parsed(None, s)
    ensures StartsWithQuote(s) ==> |r.rest| < |s|
  {
    var key := ParseLitStr(s);
    if key.result.None? then Parsed(None, key.rest)
    else
      var val := ParseValue(key.rest);
      SuffixTransitive(val.rest, key.rest, s);
      if val.result.None? then Parsed(None, val.rest)
      else Parsed(Some((key.result.value, val.result.value)), val.rest)
  }

  /** The `from_fn(|| self.parse_entry())` iterator: entries in input order
      up to the first failing `parse_entry`, whose consumption is kept. */
  function ParseEntryList(s: string): (r: Collected)
    decreases |s|, 3
    ensures IsSuffix(r.rest, s)
    ensures !StartsWithQuote(r.rest)
  {
    var e := ParseEntry(s);
    if e.result.None? then Collected([], e.rest)
    else
      var tail := ParseEntryList(e.rest);
      SuffixTransitive(tail.rest, e.rest, s);
      Collected([e.result.value] + tail.entries, tail.rest)
  }

  /** `parse_entries`: the iterator collected into a map.  It never fails. */
  function ParseEntries(s: string): (r: Parsed<Vdf>)
    decreases |s|, 4
    ensures r.result.Some?
    ensures IsSuffix(r.rest, s)
    ensures !StartsWithQuote(r.rest)
  {
    var list := ParseEntryList(s);
    Parsed(Some(Collect(list.entries)), list.rest)
  }

  /** `Iterator::collect` into a map: insertion in order, so a later entry
      with the same key replaces an earlier one. */
  function Collect(es: seq<(string, VdfValue)>): (m: Vdf)
    ensures m.Keys == set i | 0 <= i < |es| :: es[i].0
  {
    if |es| == 0 then map[]
    else Collect(es[..|es| - 1])[es[|es| - 1].0 := es[|es| - 1].1]
  }

  /** A key that no later entry repeats keeps its own value: the last
      occurrence of a key wins. */
  lemma {:induction false} CollectLastWins(es: seq<(string, VdfValue)>, i: int)
    requires 0 <= i < |es|
    requires forall j :: i < j < |es| ==> es[j].0 != es[i].0
    ensures es[i].0 in Collect(es) && Collect(es)[es[i].0] == es[i].1
  {
    if i < |es| - 1 {
      var init := es[..|es| - 1];
      assert init[i] == es[i];
      assert forall j :: i < j < |init| ==> init[j] == es[j];
      CollectLastWins(init, i);
    }
  }

  /** With no repeated key every entry is found under its own key. */
  lemma CollectDistinct(es: seq<(string, VdfValue)>)
    requires forall i, j :: 0 <= i < j < |es| ==> es[i].0 != es[j].0
    ensures forall i :: 0 <= i < |es| ==> Collect(es)[es[i].0] == es[i].1
  {
    forall i | 0 <= i < |es|
      ensures Collect(es)[es[i].0] == es[i].1
    {
      CollectLastWins(es, i);
    }
  }
}

=== FILE: vdf_facts.dfy ===
/** Consequences of the parser's definition in `src/vdf.rs` for particular
    inputs: the edge cases the unit test relies on, and how `parse_entries`
    behaves on truncated input. */
module VdfFacts {
  import opened Wrappers
  import opened Vdf
  import opened VdfPrint

  /** Empty or blank input is an empty map, and the blank is not consumed. */
  lemma BlankInput(s: string)
    requires AllWhitespace(s)
    ensures ParseEntries(s) == Parsed(Some(map[]), s)
  {
    assert !StartsWithQuote(s);
  }

  lemma EmptyMapValue()
    ensures ParseValue("{}") == Parsed(Some(Map(map[])), "")
  {
    assert "" + PrintValue(Group([], "")) + "" == "{}";
    ValueRoundTrip("", Group([], ""), "");
  }

  lemma EmptyStringValue()
    ensures ParseValue("\"\"") == Parsed(Some(Value("")), "")
  {
    assert "" + Quote("") + "" == "\"\"";
    LitStrRoundTrip("", "", "");
    assert ParseLitStr("\"\"") == Parsed(Some(""), "");
  }

  /** `parse_entries` stops where no entry can start and cannot be resumed:
      running it again on what it left yields nothing and consumes nothing. */
  lemma EntriesStopForGood(s: string)
    ensures var rest := ParseEntries(s).rest;
      ParseEntries(rest) == Parsed(Some(map[]), rest)
  {
  }

  /** A lone `"` in front of a group is swallowed: `parse_lit_str` consumes
      it and fails, and `parse_value` then reads the group after it. */
  lemma LoneQuoteSwallowed(ws: string, ws2: string)
    requires AllWhitespace(ws) && AllWhitespace(ws2)
    ensures ParseValue(ws + ['"'] + (ws2 + "{}")) == Parsed(Some(Map(map[])), "")
  {
    EmptyGroupAfter(ws2);
    ValueAfterLoneQuote(ws, ws2 + "{}");
  }

  /** After a lone opening quote, `parse_value` is `parse_map` on what
      follows the quote. */
  lemma ValueAfterLoneQuote(ws: string, t: string)
    requires AllWhitespace(ws) && '"' !in t
    ensures var m := ParseMap(t);
      ParseValue(ws + ['"'] + t)
        == if m.result.Some? then Parsed(Some(Map(m.result.value)), m.rest) else Parsed(None, m.rest)
  {
    LitStrUnterminated(ws, t);
  }

  lemma EmptyGroupAfter(ws: string)
    requires AllWhitespace(ws)
    ensures '"' !in ws + "{}"
    ensures ParseMap(ws + "{}") == Parsed(Some(map[]), "")
  {
    var t := ws + "{}";
    forall i | 0 <= i < |t|
      ensures t[i] != '"'
    {
      if i < |ws| {
        assert t[i] == ws[i];
      }
    }
    assert t == ws + PrintValue(Group([], "")) + "";
    MapRoundTrip(ws, Group([], ""), "");
  }

  /** An unterminated group does not make `parse_entries` fail: it yields an
      empty map and leaves the cursor after the key `"a"`. */
  lemma UnterminatedGroup()
    ensures ParseEntries("\"a\" { \"b\"") == Parsed(Some(map[]), " { \"b\"")
  {
    var afterKey := " { \"b\"";
    assert "\"a\" { \"b\"" == "" + Quote("a") + " { \"b\"";
    LitStrRoundTrip("", "a", afterKey);
    UnclosedGroupFails();
  }

  /** Inside the group, the key `"b"` is consumed and its missing value
      ends the entries. */
  lemma DanglingKey()
    ensures ParseEntries(" \"b\"") == Parsed(Some(map[]), "")
  {
    assert " \"b\"" == " " + Quote("b") + "";
    KeyWithoutValue(" ", "b");
  }

  /** A key with nothing after it is consumed, and the entries end with it. */
  lemma KeyWithoutValue(ws: string, k: string)
    requires AllWhitespace(ws) && '"' !in k
    ensures ParseEntries(ws + Quote(k) + "") == Parsed(Some(map[]), "")
  {
    assert ParseValue("") == Parsed(None, "");
    EntryKeepsKey(ws, k, "");
    FirstEntryFails(ws + Quote(k) + "");
  }

  /** A group whose last key has no value still parses: the entries before
      that key are kept, the key is consumed and dropped, and the group
      closes on the brace after it. */
  lemma DanglingKeyDropped(ws: string, es: seq<DocEntry>, keyWs: string, k: string, closeWs: string, tail: string)
    requires AllWhitespace(ws) && AllWhitespace(keyWs) && AllWhitespace(closeWs) && '"' !in k
    requires forall i :: 0 <= i < |es| ==> PrintableEntry(es[i])
    ensures ParseValue(ws + "{" + PrintEntries(es) + keyWs + Quote(k) + closeWs + "}" + tail)
         == Parsed(Some(Map(Collect(ToEntries(es)))), tail)
  {
    var closing := closeWs + "}" + tail;
    var body := PrintEntries(es) + (keyWs + Quote(k) + closing);
    var s := ws + "{" + PrintEntries(es) + keyWs + Quote(k) + closeWs + "}" + tail;
    assert s == ws + "{" + body;
    EntriesBeforeDanglingKey(es, keyWs, k, closeWs, tail);
    Brace(closeWs, '}', tail);
    Brace(ws, '{', body);
    assert ParseMap(s) == Parsed(Some(Collect(ToEntries(es))), tail);
  }

  /** The entries before a dangling key are read back, and the cursor
      stops at the closing brace after that key. */
  lemma EntriesBeforeDanglingKey(es: seq<DocEntry>, keyWs: string, k: string, closeWs: string, tail: string)
    requires AllWhitespace(keyWs) && AllWhitespace(closeWs) && '"' !in k
    requires forall i :: 0 <= i < |es| ==> PrintableEntry(es[i])
    ensures ParseEntries(PrintEntries(es) + (keyWs + Quote(k) + (closeWs + "}" + tail)))
         == Parsed(Some(Collect(ToEntries(es))), closeWs + "}" + tail)
  {
    var closing := closeWs + "}" + tail;
    NoValueAtBrace(closeWs, tail);
    EntryKeepsKey(keyWs, k, closing);
    EntriesThenFailure(es, keyWs + Quote(k) + closing);
  }

  /** A closing brace is no value, and trying one consumes nothing. */
  lemma NoValueAtBrace(ws: string, tail: string)
    requires AllWhitespace(ws)
    ensures ParseValue(ws + "}" + tail) == Parsed(None, ws + "}" + tail)
  {
    var s := ws + "}" + tail;
    Brace(ws, '}', tail);
    assert ParseChar(s, '{').result.None?;
    assert ParseMap(s) == Parsed(None, s);
  }

  /** `{"a" "b" "c"}` is the group holding `a` → `b`: the dangling `"c"` is
      dropped without an error. */
  lemma TruncatedGroup()
    ensures ParseValue("{\"a\" \"b\" \"c\"}") == Parsed(Some(Map(map["a" := Value("b")])), "")
  {
    var es := [DocEntry("", "a", " ", Leaf("b"))];
    assert PrintEntries(es) == "\"a\" \"b\"" by {
      assert PrintEntries(es[1..]) == [];
    }
    assert "{\"a\" \"b\" \"c\"}" == "" + "{" + PrintEntries(es) + " " + Quote("c") + "" + "}" + "";
    assert Printable(Leaf("b"));
    DanglingKeyDropped("", es, " ", "c", "", "");
    assert ToEntries(es) == [("a", Value("b"))];
  }

  /** When the first entry fails, `parse_entries` yields an empty map and
      keeps what that entry consumed. */
  lemma FirstEntryFails(s: string)
    requires ParseEntry(s).result.None?
    ensures ParseEntries(s) == Parsed(Some(map[]), ParseEntry(s).rest)
  {
  }

  /** The group is never closed, so `parse_map` fails and restores the
      cursor; so does `parse_value`. */
  lemma UnclosedGroupFails()
    ensures ParseValue(" { \"b\"") == Parsed(None, " { \"b\"")
  {
    var s := " { \"b\"";
    assert " { \"b\"" == " " + "{" + " \"b\"";
    Brace(" ", '{', " \"b\"");
    LitStrRejects(s);
    DanglingKey();
    assert ParseMap(s) == Parsed(None, s);
  }

  /** The input of the unit test `simple_vdf_parse_test`, byte for byte:
      the library `"0"` inside `"libraryfolders"`, whose own entries are
      `SnapshotFieldLines`. */
  const SnapshotInput: string :=
    "\n\"libraryfolders\"\n{\n\t\"0\"\n\t{" + SnapshotFieldLines + "\n    }\n}"

  const SnapshotFieldLines: string :=
      FieldLine("path", "/home")
    + (FieldLine("label", "")
    + (FieldLine("contentid", "0")
    + (FieldLine("totalsize", "0")
    + (FieldLine("update_clean_bytes_tally", "0")
    + (FieldLine("time_last_update_corruption", "0")
    + "\n\t\t\"apps\"\n\t\t{\n        }")))))

  /** A line of library `"0"` holding a string: two tabs of indentation,
      the quoted key, two tabs, the quoted value. */
  function FieldLine(key: string, text: string): string {
    "\n\t\t\"" + key + "\"\t\t\"" + text + "\""
  }

  /** The tree the unit test's snapshot records. */
  const SnapshotTree: Vdf :=
    map["libraryfolders" := Map(map["0" := Map(SnapshotLibrary)])]

  const SnapshotLibrary: Vdf :=
    map[
      "path" := Value("/home"),
      "label" := Value(""),
      "contentid" := Value("0"),
      "totalsize" := Value("0"),
      "update_clean_bytes_tally" := Value("0"),
      "time_last_update_corruption" := Value("0"),
      "apps" := Map(map[])]

  function Field(key: string, text: string): DocEntry {
    DocEntry("\n\t\t", key, "\t\t", Leaf(text))
  }

  /** The entries of library `"0"` in the unit test. */
  const LibraryFields: seq<DocEntry> := [
    Field("path", "/home"),
    Field("label", ""),
    Field("contentid", "0"),
    Field("totalsize", "0"),
    Field("update_clean_bytes_tally", "0"),
    Field("time_last_update_corruption", "0"),
    DocEntry("\n\t\t", "apps", "\n\t\t", Group([], "\n        "))]

  /** The layout of the unit test's input around the entries of library
      `"0"`. */
  function SnapshotShape(fields: seq<DocEntry>): seq<DocEntry> {
    [DocEntry("\n", "libraryfolders", "\n", Group([
      DocEntry("\n\t", "0", "\n\t", Group(fields, "\n    "))],
      "\n"))]
  }

  lemma ShapeLayout(fields: seq<DocEntry>)
    ensures PrintEntries(SnapshotShape(fields))
         == "\n\"libraryfolders\"\n{\n\t\"0\"\n\t{" + PrintEntries(fields) + "\n    }\n}"
  {
    var inner := DocEntry("\n\t", "0", "\n\t", Group(fields, "\n    "));
    var outer := DocEntry("\n", "libraryfolders", "\n", Group([inner], "\n"));
    InnerLayout(fields);
    assert PrintEntries([inner]) == PrintEntry(inner) + PrintEntries([]);
    OuterLayout(inner);
    assert PrintEntries([outer]) == PrintEntry(outer) + PrintEntries([]);
    Regroup(PrintEntries(fields));
  }

  lemma InnerLayout(fields: seq<DocEntry>)
    ensures PrintEntry(DocEntry("\n\t", "0", "\n\t", Group(fields, "\n    ")))
         == "\n\t\"0\"\n\t{" + PrintEntries(fields) + "\n    }"
  {
    assert Quote("0") == "\"0\"";
  }

  lemma OuterLayout(inner: DocEntry)
    ensures PrintEntry(DocEntry("\n", "libraryfolders", "\n", Group([inner], "\n")))
         == "\n\"libraryfolders\"\n" + ("{" + PrintEntry(inner) + "\n}")
  {
    SingleGroupLayout("\n", "libraryfolders", "\n", inner, "\n");
    assert Quote("libraryfolders") == "\"libraryfolders\"";
    assert "\n" + "\"libraryfolders\"" + "\n" + ("{" + PrintEntry(inner) + "\n" + "}")
        == "\n\"libraryfolders\"\n" + ("{" + PrintEntry(inner) + "\n}");
  }

  lemma SingleGroupLayout(keyWs: string, key: string, valueWs: string, inner: DocEntry, closeWs: string)
    ensures PrintEntry(DocEntry(keyWs, key, valueWs, Group([inner], closeWs)))
         == keyWs + Quote(key) + valueWs + ("{" + PrintEntry(inner) + closeWs + "}")
  {
    assert PrintEntries([inner]) == PrintEntry(inner) + PrintEntries([]);
  }

  /** The printed outer layers, with the concatenation regrouped into the
      literal the unit test uses. */
  lemma Regroup(x: string)
    ensures "\n\"libraryfolders\"\n" + ("{" + ("\n\t\"0\"\n\t{" + x + "\n    }") + "\n}")
         == "\n\"libraryfolders\"\n{\n\t\"0\"\n\t{" + x + "\n    }\n}"
  {
  }

  lemma ShapeMeaning(fields: seq<DocEntry>)
    ensures ToValue(Group(SnapshotShape(fields), "")).entries
         == map["libraryfolders" := Map(map["0" := Map(Collect(ToEntries(fields)))])]
  {
    var inner := DocEntry("\n\t", "0", "\n\t", Group(fields, "\n    "));
    var outer := DocEntry("\n", "libraryfolders", "\n", Group([inner], "\n"));
    assert ToEntries([inner]) == [("0", Map(Collect(ToEntries(fields))))];
    assert ToEntries([outer]) == [("libraryfolders", ToValue(outer.value))];
    CollectSnoc([], "0", Map(Collect(ToEntries(fields))));
    CollectSnoc([], "libraryfolders", ToValue(outer.value));
  }

  lemma ShapePrintable(fields: seq<DocEntry>)
    requires forall i :: 0 <= i < |fields| ==> PrintableEntry(fields[i])
    ensures forall i :: 0 <= i < |SnapshotShape(fields)| ==> PrintableEntry(SnapshotShape(fields)[i])
  {
    var inner := DocEntry("\n\t", "0", "\n\t", Group(fields, "\n    "));
    assert AllWhitespace("\n\t") && AllWhitespace("\n    ") && AllWhitespace("\n");
    assert PrintableEntry(inner);
  }

  lemma FieldPrintable(key: string, text: string)
    requires '"' !in key && '"' !in text
    ensures PrintableEntry(Field(key, text))
  {
    assert AllWhitespace("\n\t\t") && AllWhitespace("\t\t");
  }

  lemma LibraryFieldsPrintable()
    ensures forall i :: 0 <= i < |LibraryFields| ==> PrintableEntry(LibraryFields[i])
  {
    FieldPrintable("path", "/home");
    FieldPrintable("label", "");
    FieldPrintable("contentid", "0");
    FieldPrintable("totalsize", "0");
    FieldPrintable("update_clean_bytes_tally", "0");
    FieldPrintable("time_last_update_corruption", "0");
    assert AllWhitespace("\n\t\t") && AllWhitespace("\n        ");
    assert PrintableEntry(LibraryFields[6]);
  }

  lemma LibraryFieldsLayout()
    ensures PrintEntries(LibraryFields) == SnapshotFieldLines
  {
    SevenPieces(LibraryFields);
    FieldText("path", "/home");
    FieldText("label", "");
    FieldText("contentid", "0");
    FieldText("totalsize", "0");
    FieldText("update_clean_bytes_tally", "0");
    FieldText("time_last_update_corruption", "0");
    AppsText();
  }

  lemma SevenPieces(fs: seq<DocEntry>)
    requires |fs| == 7
    ensures PrintEntries(fs)
         == PrintEntry(fs[0]) + (PrintEntry(fs[1]) + (PrintEntry(fs[2]) + (PrintEntry(fs[3])
          + (PrintEntry(fs[4]) + (PrintEntry(fs[5]) + PrintEntry(fs[6]))))))
  {
    PrintEntriesCons(fs[6..]);
    PrintEntriesCons(fs[5..]);
    PrintEntriesCons(fs[4..]);
    PrintEntriesCons(fs[3..]);
    PrintEntriesCons(fs[2..]);
    PrintEntriesCons(fs[1..]);
    PrintEntriesCons(fs);
  }

  lemma PrintEntriesCons(es: seq<DocEntry>)
    requires |es| > 0
    ensures PrintEntries(es) == PrintEntry(es[0]) + PrintEntries(es[1..])
    ensures |es| == 1 ==> PrintEntries(es) == PrintEntry(es[0])
  {
  }

  lemma FieldText(key: string, text: string)
    ensures PrintEntry(Field(key, text)) == FieldLine(key, text)
  {
  }

  lemma AppsText()
    ensures PrintEntry(LibraryFields[6]) == "\n\t\t\"apps\"\n\t\t{\n        }"
  {
  }

  lemma CollectSnoc(es: seq<(string, VdfValue)>, k: string, v: VdfValue)
    ensures Collect(es + [(k, v)]) == Collect(es)[k := v]
  {
    assert (es + [(k, v)])[..|es|] == es;
  }

  lemma LibraryFieldsMeaning()
    ensures Collect(ToEntries(LibraryFields)) == SnapshotLibrary
  {
    var fs := LibraryFields;
    var es := ToEntries(fs);
    assert ToEntries(fs[7..]) == [];
    assert ToEntries(fs[6..]) == [("apps", Map(map[]))];
    assert ToEntries(fs[5..]) == [("time_last_update_corruption", Value("0"))] + ToEntries(fs[6..]);
    assert ToEntries(fs[4..]) == [("update_clean_bytes_tally", Value("0"))] + ToEntries(fs[5..]);
    assert ToEntries(fs[3..]) == [("totalsize", Value("0"))] + ToEntries(fs[4..]);
    assert ToEntries(fs[2..]) == [("contentid", Value("0"))] + ToEntries(fs[3..]);
    assert ToEntries(fs[1..]) == [("label", Value(""))] + ToEntries(fs[2..]);
    assert es == [("path", Value("/home"))] + ToEntries(fs[1..]);
    assert es[..0] == [];
    CollectSnoc(es[..0], "path", Value("/home"));
    assert es[..1] == es[..0] + [es[0]];
    CollectSnoc(es[..1], "label", Value(""));
    assert es[..2] == es[..1] + [es[1]];
    CollectSnoc(es[..2], "contentid", Value("0"));
    assert es[..3] == es[..2] + [es[2]];
    CollectSnoc(es[..3], "totalsize", Value("0"));
    assert es[..4] == es[..3] + [es[3]];
    CollectSnoc(es[..4], "update_clean_bytes_tally", Value("0"));
    assert es[..5] == es[..4] + [es[4]];
    CollectSnoc(es[..5], "time_last_update_corruption", Value("0"));
    assert es[..6] == es[..5] + [es[5]];
    CollectSnoc(es[..6], "apps", Map(map[]));
    assert es == es[..6] + [es[6]];
  }

  lemma SnapshotText()
    ensures PrintEntries(SnapshotShape(LibraryFields)) == SnapshotInput
  {
    LibraryFieldsLayout();
    ShapeLayout(LibraryFields);
  }

  /** No trailing whitespace after the document. */
  lemma EmptyTail(x: string)
    ensures x + "" == x
  {
  }

  /** The unit test's input parses completely to the recorded tree, in which
      `""` is an empty `Value` and the empty `apps` group an empty `Map`. */
  lemma SnapshotParse()
    ensures ParseEntries(SnapshotInput) == Parsed(Some(SnapshotTree), "")
  {
    var doc := SnapshotShape(LibraryFields);
    SnapshotText();
    EmptyTail(PrintEntries(doc));
    LibraryFieldsMeaning();
    ShapeMeaning(LibraryFields);
    LibraryFieldsPrintable();
    ShapePrintable(LibraryFields);
    RoundTrip(doc, "");
  }
}

=== FILE: vdf_print.dfy ===
/** A printer for VDF documents and the print/parse round trip of
    `src/vdf.rs`: whatever the printer writes, `parse_entries` reads back as
    the same tree and consumes completely. */
module VdfPrint {
  import opened Wrappers
  import opened Vdf

  /** A document as it is laid out in a file: entries in the order they are
      written, with the whitespace in front of every key, every value and
      every closing brace.  Its meaning as a parsed tree is `ToValue`. */
  datatype Doc = Leaf(text: string) | Group(entries: seq<DocEntry>, closeWs: string)
  datatype DocEntry = DocEntry(keyWs: string, key: string, valueWs: string, value: Doc)

  /** Keys and leaves contain no `"`, which the format cannot express, and
      the layout is whitespace only. */
  predicate Printable(d: Doc) {
    match d
    case Leaf(t) => '"' !in t
    case Group(es, closeWs) =>
      && AllWhitespace(closeWs)
      && forall i :: 0 <= i < |es| ==> PrintableEntry(es[i])
  }

  predicate PrintableEntry(e: DocEntry) {
    && AllWhitespace(e.keyWs) && '"' !in e.key
    && AllWhitespace(e.valueWs) && Printable(e.value)
  }

  /** The tree a document denotes; a repeated key keeps its last value. */
  function ToValue(d: Doc): VdfValue {
    match d
    case Leaf(t) => Value(t)
    case Group(es, _) => Map(Collect(ToEntries(es)))
  }

  function ToEntries(es: seq<DocEntry>): (r: seq<(string, VdfValue)>)
    ensures |r| == |es|
    ensures forall i :: 0 <= i < |es| ==> r[i] == (es[i].key, ToValue(es[i].value))
  {
    if |es| == 0 then [] else [(es[0].key, ToValue(es[0].value))] + ToEntries(es[1..])
  }

  function Quote(t: string): string {
    ['"'] + t + ['"']
  }

  /** An entry is `"key" value`; a group is `{`, its entries, `}`. */
  function PrintEntry(e: DocEntry): string {
    e.keyWs + Quote(e.key) + e.valueWs + PrintValue(e.value)
  }

  function PrintEntries(es: seq<DocEntry>): string {
    if |es| == 0 then [] else PrintEntry(es[0]) + PrintEntries(es[1..])
  }

  function PrintValue(d: Doc): string {
    match d
    case Leaf(t) => Quote(t)
    case Group(es, closeWs) => "{" + PrintEntries(es) + closeWs + "}"
  }

  /** Leading whitespace is invisible to `trim_start`. */
  lemma {:induction false} TrimWhitespacePrefix(ws: string, x: string)
    requires AllWhitespace(ws)
    requires |x| > 0 && !IsWhitespace(x[0])
    ensures TrimStart(ws + x) == x
  {
    if |ws| > 0 {
      assert (ws + x)[1..] == ws[1..] + x;
      TrimWhitespacePrefix(ws[1..], x);
    } else {
      assert ws + x == x;
    }
  }

  lemma {:induction false} SplitOnceFirst(t: string, c: char, u: string)
    requires c !in t
    ensures SplitOnce(t + [c] + u, c) == Some((t, u))
  {
    if |t| == 0 {
      assert t + [c] + u == [c] + u;
    } else {
      assert (t + [c] + u)[1..] == t[1..] + [c] + u;
      SplitOnceFirst(t[1..], c, u);
      assert [t[0]] + t[1..] == t;
    }
  }

  /** A quoted string after whitespace parses to its contents. */
  lemma LitStrRoundTrip(ws: string, t: string, tail: string)
    requires AllWhitespace(ws) && '"' !in t
    ensures ParseLitStr(ws + Quote(t) + tail) == Parsed(Some(t), tail)
  {
    var s := ws + Quote(t) + tail;
    assert s == ws + (['"'] + (t + ['"'] + tail));
    TrimWhitespacePrefix(ws, ['"'] + (t + ['"'] + tail));
    assert SplitChar(s) == Some(('"', t + ['"'] + tail));
    SplitOnceFirst(t, '"', tail);
  }

  /** A cursor whose next token is not a quote makes `parse_lit_str` fail
      without consuming. */
  lemma LitStrRejects(s: string)
    requires !StartsWithQuote(s)
    ensures ParseLitStr(s) == Parsed(None, s)
  {
  }

  /** An opening quote with no closing quote after it: `parse_lit_str`
      fails, and the cursor stays just after the opening quote. */
  lemma LitStrUnterminated(ws: string, t: string)
    requires AllWhitespace(ws) && '"' !in t
    ensures ParseLitStr(ws + ['"'] + t) == Parsed(None, t)
  {
    var s := ws + ['"'] + t;
    assert s == ws + (['"'] + t);
    TrimWhitespacePrefix(ws, ['"'] + t);
    assert (['"'] + t)[1..] == t;
    assert SplitChar(s) == Some(('"', t));
  }

  /** A key that parsed stays consumed when its value fails: `parse_entry`
      leaves the cursor where `parse_value` left it, after the key. */
  lemma EntryKeepsKey(ws: string, k: string, t: string)
    requires AllWhitespace(ws) && '"' !in k
    requires ParseValue(t).result.None?
    ensures ParseEntry(ws + Quote(k) + t) == Parsed(None, ParseValue(t).rest)
  {
    LitStrRoundTrip(ws, k, t);
  }

  /** A brace after whitespace is no quoted string, and `parse_char`
      consumes it: `{` opens a group and `}` closes one. */
  lemma Brace(ws: string, brace: char, tail: string)
    requires AllWhitespace(ws) && (brace == '{' || brace == '}')
    ensures !StartsWithQuote(ws + [brace] + tail)
    ensures ParseChar(ws + [brace] + tail, brace) == Parsed(Some(()), tail)
  {
    assert ws + [brace] + tail == ws + ([brace] + tail);
    TrimWhitespacePrefix(ws, [brace] + tail);
    assert ([brace] + tail)[1..] == tail;
  }

  lemma {:induction false} MapRoundTrip(ws: string, d: Doc, tail: string)
    requires AllWhitespace(ws) && d.Group? && Printable(d)
    ensures ParseMap(ws + PrintValue(d) + tail) == Parsed(Some(Collect(ToEntries(d.entries))), tail)
    decreases d, 1
  {
    var closing := d.closeWs + "}" + tail;
    var body := PrintEntries(d.entries) + closing;
    var s := ws + PrintValue(d) + tail;
    assert s == ws + "{" + body;
    Brace(ws, '{', body);
    Brace(d.closeWs, '}', tail);
    EntriesRoundTrip(d.entries, closing);
    assert ParseEntries(body) == Parsed(Some(Collect(ToEntries(d.entries))), closing);
  }

  lemma {:induction false} ValueRoundTrip(ws: string, d: Doc, tail: string)
    requires AllWhitespace(ws) && Printable(d)
    ensures ParseValue(ws + PrintValue(d) + tail) == Parsed(Some(ToValue(d)), tail)
    decreases d, 2
  {
    match d
    case Leaf(t) =>
      LitStrRoundTrip(ws, t, tail);
    case Group(es, closeWs) =>
      var s := ws + PrintValue(d) + tail;
      var body := PrintEntries(es) + closeWs + "}" + tail;
      assert s == ws + "{" + body;
      Brace(ws, '{', body);
      LitStrRejects(s);
      MapRoundTrip(ws, d, tail);
  }

  lemma {:induction false} EntryRoundTrip(e: DocEntry, tail: string)
    requires PrintableEntry(e)
    ensures ParseEntry(PrintEntry(e) + tail) == Parsed(Some((e.key, ToValue(e.value))), tail)
    decreases e, 0
  {
    var afterKey := e.valueWs + PrintValue(e.value) + tail;
    assert PrintEntry(e) + tail == e.keyWs + Quote(e.key) + afterKey;
    LitStrRoundTrip(e.keyWs, e.key, afterKey);
    ValueRoundTrip(e.valueWs, e.value, tail);
  }

  lemma {:induction false} EntriesRoundTrip(es: seq<DocEntry>, tail: string)
    requires forall i :: 0 <= i < |es| ==> PrintableEntry(es[i])
    requires !StartsWithQuote(tail)
    ensures ParseEntryList(PrintEntries(es) + tail) == Collected(ToEntries(es), tail)
    decreases es, 0
  {
    if |es| == 0 {
      assert PrintEntries(es) + tail == tail;
    } else {
      var more := PrintEntries(es[1..]) + tail;
      assert PrintEntries(es) + tail == PrintEntry(es[0]) + more;
      EntryRoundTrip(es[0], more);
      EntriesRoundTrip(es[1..], tail);
    }
  }

  /** Printed entries are read back one by one, in order, until the entry
      after them fails; what that failed entry consumed stays consumed. */
  lemma EntriesThenFailure(es: seq<DocEntry>, tail: string)
    requires forall i :: 0 <= i < |es| ==> PrintableEntry(es[i])
    requires ParseEntry(tail).result.None?
    ensures ParseEntryList(PrintEntries(es) + tail) == Collected(ToEntries(es), ParseEntry(tail).rest)
  {
    EntriesBefore(es, tail);
    assert ToEntries(es) + [] == ToEntries(es);
  }

  /** Printed entries in front of any text are read back in order, and the
      iteration then carries on over that text as it would alone. */
  lemma {:induction false} EntriesBefore(es: seq<DocEntry>, tail: string)
    requires forall i :: 0 <= i < |es| ==> PrintableEntry(es[i])
    ensures var after := ParseEntryList(tail);
      ParseEntryList(PrintEntries(es) + tail) == Collected(ToEntries(es) + after.entries, after.rest)
    decreases es
  {
    if |es| == 0 {
      assert PrintEntries(es) + tail == tail;
    } else {
      var more := PrintEntries(es[1..]) + tail;
      var after := ParseEntryList(tail);
      PrintEntriesSplit(es, tail);
      EntryRoundTrip(es[0], more);
      EntriesBefore(es[1..], tail);
      EntryListCons(PrintEntry(es[0]) + more, (es[0].key, ToValue(es[0].value)), more,
                    Collected(ToEntries(es[1..]) + after.entries, after.rest));
      ToEntriesCons(es, after.entries);
    }
  }

  /** The meaning of a non-empty list starts with its first entry. */
  lemma ToEntriesCons(es: seq<DocEntry>, more: seq<(string, VdfValue)>)
    requires |es| > 0
    ensures ToEntries(es) + more == [(es[0].key, ToValue(es[0].value))] + (ToEntries(es[1..]) + more)
  {
    var first := [(es[0].key, ToValue(es[0].value))];
    assert ToEntries(es) == first + ToEntries(es[1..]);
    AppendAssociative(first, ToEntries(es[1..]), more);
  }

  lemma AppendAssociative<T>(a: seq<T>, b: seq<T>, c: seq<T>)
    ensures (a + b) + c == a + (b + c)
  {
  }

  /** An entry that parses is the first of the list, and the iteration
      resumes where it ended. */
  lemma EntryListCons(s: string, e: (string, VdfValue), more: string, after: Collected)
    requires ParseEntry(s) == Parsed(Some(e), more)
    requires ParseEntryList(more) == after
    ensures ParseEntryList(s) == Collected([e] + after.entries, after.rest)
  {
  }

  /** Printing a non-empty list is printing its first entry, then the rest. */
  lemma PrintEntriesSplit(es: seq<DocEntry>, tail: string)
    requires |es| > 0
    ensures PrintEntries(es) + tail == PrintEntry(es[0]) + (PrintEntries(es[1..]) + tail)
  {
  }

  /** The round trip: a printed document, followed by any trailing
      whitespace, parses back through `parse_entries` to the tree it
      denotes, and only the trailing whitespace is left over. */
  lemma RoundTrip(es: seq<DocEntry>, trailing: string)
    requires forall i :: 0 <= i < |es| ==> PrintableEntry(es[i])
    requires AllWhitespace(trailing)
    ensures ParseEntries(PrintEntries(es) + trailing)
         == Parsed(Some(ToValue(Group(es, trailing)).entries), trailing)
  {
    assert !StartsWithQuote(trailing);
    EntriesRoundTrip(es, trailing);
  }
}

=== FILE: wrappers.dfy ===
/** Failure-carrying datatypes shared by the whole model: `Option` stands for
    Rust's `Option`, `Result` for `anyhow::Result` with a typed error. */
module Wrappers {

  datatype Option<+T> = None | Some(value: T)

  datatype Result<+R, +E> = Success(value: R) | Failure(error: E)

  /** The three outcomes of Rust's `Ord::cmp`. */
  datatype Ordering = Less | Equal | Greater {

    /** The ordering seen from the other side (`Ordering::reverse`). */
    function Reverse(): Ordering {
      match this
      case Less => Greater
      case Equal => Equal
      case Greater => Less
    }
  }
}
